=== FILE: README.md ===
# levenshtein — a Dafny model of the edit-distance engine and its comparator

This project models the core of `gnames/levenshtein`, a Go library that
compares two strings by Levenshtein edit distance and can also mark up how
they differ.

- **The bounded pass** (`ComputeDistanceMax`) keeps a single row of the
  distance matrix. It gives up as soon as a whole row lies above a
  positive cap.
- **The full pass** (`ComputeDistance`) can keep the whole matrix. When
  asked to, it walks the matrix back from the bottom-right cell
  (`traceBack`) and replays the resulting edit script (`diffs`) into two
  tagged views. The views mark runs of substitutions, insertions and
  deletions with `<subst>`, `<ins>` and `<del>` spans. In the second view,
  `ins` and `del` are swapped.
- **The comparator** is built from options (`NewLevenshtein`,
  `OptWithDiff`, `OptMaxEditDist`). It runs the bounded pass first when a
  cap is set, then the full pass (`Compare`). Its batch form
  (`CompareMult`) collects the outputs of several workers under a key
  computed from each pair and reassembles them in input order.

The two copies of the engine, `entity/editdist/editdist.go` and
`ent/editdist/editdist.go`, are identical in everything modelled here. The
second copy has its lines shifted: +2 before `ComputeDistance`, +7 inside
it, +43 after it. The table below cites the copy that the comparator
imports (`entity/`) and, for some members, the same lines in `ent/`.

Module layout:

| file | module | what it holds |
|---|---|---|
| `lev.dfy` | `EditDistance` | the reference distance `Cell`/`Lev` on prefixes, and its laws |
| `events.dfy` | `Events` | event kinds, `invert`, tag names, what a script consumes and costs |
| `tags.dfy` | `Tags` | tagged views as tokens, what they describe, and their text |
| `render.dfy` | `Render` | the replay of an edit script into two views (`diffs`) |
| `trace.dfy` | `Trace` | the matrix layout, the traceback and its optimality |
| `distance.dfy` | `Distance` | the bounded and the full pass |
| `levenshtein.dfy` | `Comparator` | options, `Compare`, and the batch reassembly |

Conventions:

- Strings are sequences of runes (`seq<int>`).
- Cell `(i, j)` of the matrix is the distance between the first `i` runes
  of the second string (rows) and the first `j` runes of the first string
  (columns), as in the engine.
- A tagged view is a sequence of tokens (`Char`, `Open`, `Close`).
  `Tags.Flatten` gives the text the engine would write for it.
- `Tags.Spans` lists, rune by rune, the span each rune of a view sits in,
  and `Tags.Letters` lists the runes. A legal view is fixed by these two
  lists and the span it ends in (`Tags.Determined`). So the views are pinned
  down exactly by what the replay states: the runes of the two strings, and
  the span of each rune taken from the step of the script that wrote it
  (`Render.EventSpans`).

## Model

| member | source | states |
|---|---|---|
| EditDistance.Min | entity/editdist/editdist.go:190-195 | the result is one of the two arguments and no larger than either |
| EditDistance.CellRecurrence | entity/editdist/editdist.go:164-173 | a cell equals its diagonal on equal runes; otherwise it is one plus the least of diagonal, left and up, in both groupings the two passes use (bounded: `min(min(d+1,l+1),u+1)`; full: `min(d+1,min(l+1,u+1))`) |
| EditDistance.CellSymmetric | entity/editdist/editdist.go:66-69 | the matrix of `(s1, s2)` is the transpose of that of `(s2, s1)` |
| EditDistance.LevSymmetric | ent/editdist/editdist.go:68-71 | swapping the operands leaves the distance unchanged, so the bounded pass may put the shorter string on the columns |
| EditDistance.CellBounds | entity/editdist/editdist.go:88-102 | every cell lies between the difference of its prefix lengths and the larger of them |
| EditDistance.LevBounds | entity/editdist/editdist.go:74-78 | `abs(len(a)-len(b)) <= distance <= max(len(a), len(b))`: on strings of at most 254 runes every uint8 cell, plus one, fits |
| EditDistance.CellZero | entity/editdist/editdist.go:113-115 | a cell is zero exactly when its prefixes have equal length and are equal |
| EditDistance.LevZero | entity/editdist/editdist.go:55-57 | the distance is zero if and only if the strings are equal, so the early return of 0 for equal strings agrees with the matrix |
| EditDistance.Neighbours | entity/editdist/editdist.go:224-238 | horizontally and vertically adjacent cells differ by at most one, and a cell is at most one above its diagonal predecessor |
| EditDistance.NextRowFloor | entity/editdist/editdist.go:85-108 | a floor under every cell of one row is a floor under every cell of the next |
| EditDistance.RowFloorReachesEnd | ent/editdist/editdist.go:87-110 | a floor under a whole row is a floor under the final distance |
| EditDistance.RowMinimumSound | entity/editdist/editdist.go:104-106 | if every cell of columns 1..n of a row exceeds m, the final distance exceeds m; column 0 need not be looked at |
| Events.Name | entity/editdist/editdist.go:21-32 | only `subst`, `ins` and `del` have a non-empty tag name |
| Events.NamesDistinct | entity/editdist/editdist.go:21-32 | two kinds with the same non-empty tag name are the same kind, so the markers of different kinds are different text |
| Events.Invert | entity/editdist/editdist.go:303-311 | only `ins` and `del` change; `none`, `same` and `subst` are fixed |
| Events.InvertInvolution | ent/editdist/editdist.go:346-354 | inverting twice gives the event back, and `ins` inverts exactly to `del` |
| Tags.PlainFacts | entity/editdist/editdist.go:113-115 | an equal pair returned unchanged is a well-formed view with no tag that describes its own string, mirrors itself and agrees with itself rune for rune |
| Tags.FlattenUntagged | ent/editdist/editdist.go:120-122 | the text of untagged runes is the runes themselves |
| Tags.WrapFacts | entity/editdist/editdist.go:117-127 | a single span around a non-empty string is well formed and tags every rune; it describes the string unless it is a `del` span; the `ins` and `del` spans mirror each other and hold the same runes at the same places |
| Tags.Determined | entity/editdist/editdist.go:256-299 | two legal views that end in the same span, put their runes in the same spans and hold the same runes are the same token sequence: markers are written only where a span changes, so the spans leave no choice in where they go |
| Tags.FlattenWrap | ent/editdist/editdist.go:124-134 | the text of a single span is `<k>`, the runes, `</k>` |
| Render.MarkersStep | entity/editdist/editdist.go:256-273 | the markers written before an event move the span state to the event's kind, keep the view legal, and add no rune |
| Render.Markers | entity/editdist/editdist.go:256-273 | the markers before an event contain no rune; on a change of kind they close the span of the previous event (none after `none` or `same`) and open the span of the new one (none for `same`); on a repeat, nothing |
| Render.ChangeStep | entity/editdist/editdist.go:262-273 | on a change of kind, the previous span is closed unless it was `same`, and a span of the new kind is opened unless it is `same` |
| Render.MarkersMirror | ent/editdist/editdist.go:300-316 | the second view's markers are the first view's with `ins` and `del` swapped |
| Render.EmitStep | entity/editdist/editdist.go:274-292 | writing one event to a view keeps it legal and inside the event's span; the rune is described unless the event is a deletion and tagged unless it is `same` |
| Render.EmitBoth | ent/editdist/editdist.go:317-335 | after one event, the first view has consumed one more rune of s1 unless the event is `del`, the second one more of s2 unless it is `ins`; both gained one tagged rune for an edit; they still mirror each other; and the views still agree rune for rune outside `subst` spans and differ inside them, given that the two runes written are equal exactly when the event is not `subst` |
| Render.Emit | entity/editdist/editdist.go:256-292 | each view grows by the event's markers and then one rune: `del` writes the next rune of s2 to both views, `ins` the next of s1, `same`/`subst` each string's next rune to its own view, so the new rune of the first view sits in the event's span; given a `same` on equal runes or a `subst` on unequal ones, both views afterwards describe the runes consumed, mirror each other, and agree rune for rune except inside `subst` spans |
| Render.CloseLast | ent/editdist/editdist.go:339-342 | closing the span of the last event leaves a well-formed view and changes neither its content nor its tag count |
| Render.Finish | entity/editdist/editdist.go:296-299 | each view gains exactly the closing marker of the last event's span (none after `same`; `ins` and `del` swapped in the second view) and no rune; afterwards both are well formed, describe the runes consumed, carry the script's cost in tagged runes, mirror each other, and agree rune for rune except inside `subst` spans, where they differ |
| Render.EventSpans | entity/editdist/editdist.go:254-255 | the replay reads the script from its last entry to its first, so the k-th rune written belongs to entry `len(events)-1-k`, and sits in that entry's span |
| Render.ReplayOne | entity/editdist/editdist.go:254-295 | one turn of the replay loop, from the last event to the first: each view grows by event j's markers after the previous event and then one rune, the first view's rune being the next rune of s2 for `del` and of s1 otherwise (the second view's the next of s1 for `ins` and of s2 otherwise); the counts of deletions and insertions fix which runes were consumed |
| Render.Diffs | entity/editdist/editdist.go:245-301 | for a script whose `same` steps join equal runes and `subst` steps unequal ones, the two views are well formed and mirror each other; they describe the prefixes of s1 and s2 that the script consumes; each has exactly the script's cost in tagged runes; the k-th rune of the first view sits in the span of the k-th event from the end of the list; and the views hold the same rune at every place except inside `subst` spans, where they hold different ones. With `Tags.Determined` this leaves one possible pair of views: the first view's runes are those of s1 outside `del` spans and, by the pairing, the second view's runes inside them |
| Trace.Choose | entity/editdist/editdist.go:209-238 | the tie rule of the traceback: `del` exactly when the cell above is below the current cell and below the diagonal and left cells; otherwise `ins` exactly when the left cell is below the current and diagonal cells; otherwise `subst` exactly when the diagonal is below the current cell; `same` exactly when no predecessor is below the current cell; only predecessors inside the matrix are taken |
| Trace.ChooseSound | entity/editdist/editdist.go:224-238 | the chosen step lands on a cell cheaper by exactly its cost; `same` only joins equal runes and `subst` only unequal ones |
| Trace.ScriptMatches | entity/editdist/editdist.go:209-242 | the script handed to the renderer marks a step `same` exactly when it joins two equal runes, and `subst` exactly when it joins two different ones |
| Trace.Script | entity/editdist/editdist.go:208-241 | the script from cell (i, j) has at most i + j events, and is empty only at the origin |
| Trace.AlignsConsumes | entity/editdist/editdist.go:274-292 | a script that aligns i runes of s2 with j runes of s1 consumes exactly those runes |
| Trace.AlignCostAtLeast | entity/editdist/editdist.go:197-243 | no alignment costs less than the matrix cell: the distance is the least cost of an edit script |
| Trace.TraceAligns | entity/editdist/editdist.go:204-241 | the traceback's script is an alignment of the two prefixes |
| Trace.TraceCost | ent/editdist/editdist.go:247-284 | the traceback's script costs exactly the cell, so with AlignCostAtLeast it is optimal |
| Trace.TraceWhole | ent/editdist/editdist.go:240-286 | the whole script consumes both strings and costs their distance |
| Trace.At | entity/editdist/editdist.go:207 | reading the row-major matrix at `rl*i+j` gives cell (i, j) |
| Trace.Predecessors | entity/editdist/editdist.go:210-223 | the three predecessor distances, with -1 for those outside the matrix |
| Trace.Step | entity/editdist/editdist.go:209-239 | one turn of the traceback loop: it picks the reference choice, moves to its predecessor, and carries that cell's value |
| Trace.Walk | entity/editdist/editdist.go:198-241 | the loop collects exactly the reference script, which aligns the strings and costs their distance |
| Trace.TraceBack | ent/editdist/editdist.go:240-286 | the rendered views describe both strings, are well formed and mirrored, carry the distance in tagged runes, and agree rune for rune except inside `subst` spans, where they differ; the k-th rune of the first view sits in the span of the k-th step of the traceback's script read from its start, so among the optimal renderings it is the one of that script, with its tie-breaking |
| Distance.TruncatedCapAborts | entity/editdist/editdist.go:104 | with cap 256, "a" against "b" passes the as-written row test although the distance 1 is within the cap |
| Distance.ExceedsAsWritten | ent/editdist/editdist.go:106-108 | the engine's row test, with the cap converted to uint8: it agrees with the intended integer test exactly for caps 1..255, and a positive cap that is a multiple of 256 becomes 0, so the test fires on every row whose least cell is not 0 |
| Distance.RowMinIsLeast | entity/editdist/editdist.go:97-99 | the row minimum is one of the row's cells in columns 1..n and no larger than any of them |
| Distance.CellMax | entity/editdist/editdist.go:89-96 | the bounded pass computes each cell exactly, and every cell stays below the sentinel 255 |
| Distance.CellFull | ent/editdist/editdist.go:172-180 | the full pass computes each cell exactly |
| Distance.NextRowMax | entity/editdist/editdist.go:86-107 | one row of the bounded pass: the in-place update yields the next matrix row, and the tracked minimum is the least of columns 1..n |
| Distance.BoundedRows | entity/editdist/editdist.go:73-109 | the row loop gives up exactly when some row lies wholly above a positive cap (and then the distance does exceed the cap); otherwise it returns the exact distance |
| Distance.ComputeDistanceMax | entity/editdist/editdist.go:38-110 | a result that is not given up is the exact distance; it gives up (returning the cap) exactly in the cases of `AbortsAt`, and only when the distance exceeds the cap |
| Distance.NextRow | entity/editdist/editdist.go:163-178 | one row of the full pass: the in-place update yields the next matrix row |
| Distance.AppendRow | entity/editdist/editdist.go:179-181 | appending row i to the first i rows stores row i where the traceback reads it |
| Distance.Rows | entity/editdist/editdist.go:139-182 | the full pass ends with the last matrix row, and, with diff set, the whole matrix stored row by row |
| Distance.ComputeDistance | entity/editdist/editdist.go:112-188 | it returns the exact distance. Equal strings come back untagged. An empty operand makes the other a single `del` span in the first view and an `ins` span in the second. Without diff, the views of other pairs are empty. Otherwise the views describe the two strings, tag the distance's number of runes, agree rune for rune except inside `subst` spans, and put each rune in the span of its step of the traceback's script |
| Comparator.NewLevenshtein | levenshtein.go:54-60 | a field differs from its zero value only if some option set it to that value |
| Comparator.Apply | levenshtein.go:31-44 | `OptWithDiff` sets `withDiff` and `OptMaxEditDist` sets the cap, each leaving the other field alone |
| Comparator.LastWithDiffWins | levenshtein.go:31-35 | the last `OptWithDiff` decides `withDiff` |
| Comparator.LastMaxWins | levenshtein.go:40-44 | the last `OptMaxEditDist` decides the cap |
| Comparator.Opts | levenshtein.go:91-93 | the options a configuration reports rebuild it with the same `withDiff` and cap 0, which is how every batch worker is configured (levenshtein.go:139) |
| Comparator.Compare | levenshtein.go:68-88 | the output echoes the inputs. It is given up exactly when a positive cap makes the bounded pass give up, and then carries the cap (below the distance) and no views. Otherwise it is the full pass's result: the exact distance, untagged equal strings, single spans for an empty operand, no views for other pairs without diff, and with diff views that describe both strings, agree everywhere but inside `subst` spans, and put each rune in the span of its step of the traceback's script |
| Comparator.JoinKey | levenshtein.go:145-147 | the joined text is the first string, then the separator `\v\|\v` (runes 11, 124, 11), then the second string |
| Comparator.JoinKeyCollides | levenshtein.go:146 | two different pairs join to the same text, so they share a key |
| Comparator.CollectOutputs | levenshtein.go:105-124 | every input gets an entry under its key, and every entry is a finished comparison of some input filed under its own key |
| Comparator.Reassemble | levenshtein.go:126-130 | the result has one entry per input, in input order, read under that input's key |
| Comparator.CompareMult | levenshtein.go:96-131 | each result is a full-pass result (distance and views, for the caller's `withDiff`) filed under its input's key; inputs with equal keys get equal results; only when keys separate the inputs is each result the comparison of its own input |
| Comparator.CompareMultIndexed | levenshtein.go:114-130 | keyed by input position, every result is the full-pass result of its own input (distance and views, for the caller's `withDiff`), whatever the arrival order |
| Comparator.CollectIndexed | levenshtein.go:105-124 | after every unit of work has arrived, each input position holds the finished comparison of its own pair and no other position is filled |

## Left out

- UTF-8: strings are modelled as rune sequences. Decoding, `utf8.RuneCountInString` and conversion back to `string` are left out. Rune counts and rune indices are what the model states.
- Distance.ComputeDistanceMax: stated for strings of at most 254 runes. Beyond that the engine's uint8 cells wrap (a cell of 256 reads as 0). That wrap-around is not modelled, and the contract says nothing about longer inputs.
- Distance.ComputeDistance: the same 254-rune domain, for the same uint8 reason.
- Comparator.Compare: the same 254-rune domain, inherited from the two passes.
- Comparator.CompareMult: the same 254-rune domain, for every pair of the batch (`Fits`).
- Comparator.CompareMult: goroutines, channels and wait groups are left out. The workers and the collector run one after another. The order in which outputs reach the collector is a parameter (any arrangement of the input positions). The 16-worker constant is left out, because with cap 0 every worker computes the same function.
- Comparator.CompareMult: `getUUID` (a name-based UUID from an external library) is an arbitrary function of the joined text, passed as a parameter. The model states only what holds for every such function.
- Render.Diffs: requires at least one event. Given no events, the engine would write a lone `</>` pair, but its only caller (the traceback on two non-empty strings) always passes at least one.
- Render.Diffs: states the layout through the span of every rune (`Render.EventSpans`) and the runes each view describes, not as one token-sequence formula. `Tags.Determined` shows that these facts leave only one possible view.
- Render.Emit: requires a `same` step on equal runes and a `subst` step on unequal ones, which is what the traceback's script provides (`Trace.ScriptMatches`). The engine's switch writes the runes whatever they are.
- Render.Diffs: requires a script whose `same` steps join equal runes and `subst` steps unequal ones. The engine renders any script, but its only caller passes the traceback's script, which has this property (`Trace.ScriptMatches`). Given another script, the views would still be written, but they would not agree outside `subst` spans.
- Distance.ComputeDistanceMax: a result that is not given up may still exceed the cap. Only a row that lies wholly above the cap stops the pass. For example, "ab" against "ba" with cap 1 gives (2, not given up). The contract states this code behaviour, not the stronger claim that any distance over the cap is reported as given up.
- Distance.ComputeDistanceMax: for caps of 256 or more it uses the corrected integer row test of "## Findings", not the engine's uint8 test. On such caps the engine may give up where the model does not: "a" against "b" with cap 256 gives (256, true) in the engine and (1, false) here. `Distance.ExceedsAsWritten` and `Distance.TruncatedCapAborts` model the engine's test.
- Comparator.Compare: inherits the corrected row test for caps of 256 or more. With cap 256, "a" against "b" yields distance 256, given up, no views in the engine, but distance 1, not given up, in the model.
- `ComputeDistanceTerm` and `termColors` (terminal colouring of the tags through regular expressions) are not modelled.
- The command-line tool, the presenter's output formats, the `Levenshtein` interface, `Version`, `Batch` and the benchmarks are outside the engine and not modelled.

## Findings

| source | as written | input that shows it | evidently intended | confidence | as-written member | corrected member |
|---|---|---|---|---|---|---|
| entity/editdist/editdist.go:104 | the row test compares with `uint8(max)`, so a cap of 256 or more is taken modulo 256 | cap 256, "a" against "b": the first row's least cell is 1 > 0, so the pass gives up with (256, true) although the distance is 1 | compare the row minimum with the cap as an integer | high; not executed | Distance.TruncatedCapAborts | Distance.ComputeDistanceMax |
| levenshtein.go:146 | batch outputs are filed under a hash of `str1 + "\v\|\v" + str2`, which is not injective on pairs | the pairs ("a\v\|\v", "b") and ("a", "\v\|\vb") join to the same text, so both inputs receive whichever output arrived last | file each output under its input position | high; not executed | Comparator.JoinKeyCollides | Comparator.CompareMultIndexed |

=== FILE: distance.dfy ===
/** The two distance passes: the bounded one (`ComputeDistanceMax`), which
    keeps a single row and may give up early, and the full one
    (`ComputeDistance`), which can keep the whole matrix and render the
    differences. Runes are ints; the engine's uint8 cells are exact for
    strings of at most 254 runes, the domain both passes are stated on. */
module Distance {
  import opened EditDistance
  import opened Events
  import opened Tags
  import opened Trace
  import opened Render

  /** Longest string (in runes) on which every uint8 cell, and every cell
      plus one, fits without wrapping. */
  const MaxRunes: nat := 254

  /** The bounded pass's sentinel for "no cell seen yet in this row". */
  const Unset: nat := 255

  /** Every cell of row i, past column 0, exceeds m. */
  ghost predicate RowExceeds(s1: seq<int>, s2: seq<int>, i: nat, m: int)
    requires i <= |s2|
  {
    forall k :: 1 <= k <= |s1| ==> Cell(s1, s2, i, k) > m
  }

  /** The pair the bounded pass works on: the shorter string first. */
  function Shorter(a: seq<int>, b: seq<int>): seq<int>
  {
    if |a| > |b| then b else a
  }

  function Longer(a: seq<int>, b: seq<int>): seq<int>
  {
    if |a| > |b| then a else b
  }

  /** When the bounded pass gives up: for an empty operand, when a positive
      cap is below the other's length; for equal operands, never;
      otherwise when a positive cap is below every cell of some row of the
      matrix of the shorter string against the longer one. */
  ghost predicate AbortsAt(a: seq<int>, b: seq<int>, max: int)
  {
    if |a| == 0 then max > 0 && |b| > max
    else if |b| == 0 then max > 0 && |a| > max
    else if a == b then false
    else
      max > 0 &&
      exists i :: 1 <= i <= |Longer(a, b)| && RowExceeds(Shorter(a, b), Longer(a, b), i, max)
  }

  /** The row test that ends the bounded pass, with the cap compared as the
      integer it is. */
  predicate Exceeds(rowDist: nat, max: int)
  {
    max > 0 && rowDist > max
  }

  /** The row test as the engine writes it: the cap is converted to uint8
      before the comparison, so it is taken modulo 256. It agrees with the
      intended test for caps 1..255; a positive cap that is a multiple of
      256 becomes 0 and fires on every row whose smallest cell is not 0. */
  predicate ExceedsAsWritten(rowDist: nat, max: int)
    ensures 0 < max < 256 ==> (ExceedsAsWritten(rowDist, max) <==> Exceeds(rowDist, max))
    ensures max > 0 && max % 256 == 0 ==> (ExceedsAsWritten(rowDist, max) <==> rowDist > 0)
  {
    max > 0 && rowDist > max % 256
  }

  /** With a cap of 256, comparing "a" with "b" ends after the first row,
      whose smallest cell is 1, although the distance, 1, is within the cap. */
  lemma TruncatedCapAborts()
    ensures Cell([97], [98], 1, 1) == 1 && Lev([97], [98]) == 1
    ensures ExceedsAsWritten(Cell([97], [98], 1, 1), 256)
    ensures !Exceeds(Cell([97], [98], 1, 1), 256)
  {
    assert Cell([97], [98], 0, 0) == 0;
    assert Cell([97], [98], 1, 0) == 1 && Cell([97], [98], 0, 1) == 1;
  }

  /** Smallest cell of row i among columns 1..n, the first one on a tie. */
  function RowMin(s1: seq<int>, s2: seq<int>, i: nat, n: nat): nat
    requires i <= |s2| && 1 <= n <= |s1|
  {
    if n == 1 then Cell(s1, s2, i, 1)
    else
      var m := RowMin(s1, s2, i, n - 1);
      if Cell(s1, s2, i, n) < m then Cell(s1, s2, i, n) else m
  }

  /** RowMin is one of the cells it ranges over and no larger than any. */
  lemma {:induction false} RowMinIsLeast(s1: seq<int>, s2: seq<int>, i: nat, n: nat)
    requires i <= |s2| && 1 <= n <= |s1|
    ensures exists k :: 1 <= k <= n && RowMin(s1, s2, i, n) == Cell(s1, s2, i, k)
    ensures forall k :: 1 <= k <= n ==> RowMin(s1, s2, i, n) <= Cell(s1, s2, i, k)
  {
    if n == 1 {
      assert RowMin(s1, s2, i, n) == Cell(s1, s2, i, 1);
    } else {
      RowMinIsLeast(s1, s2, i, n - 1);
      var w :| 1 <= w <= n - 1 && RowMin(s1, s2, i, n - 1) == Cell(s1, s2, i, w);
      if Cell(s1, s2, i, n) < RowMin(s1, s2, i, n - 1) {
        assert RowMin(s1, s2, i, n) == Cell(s1, s2, i, n);
      } else {
        assert RowMin(s1, s2, i, n) == Cell(s1, s2, i, w);
      }
    }
  }

  /** A row being overwritten in place: cells before column j-1 already
      hold row i, the rest still hold row i-1. */
  ghost predicate RowSplit(s1: seq<int>, s2: seq<int>, i: nat, j: nat, y: seq<nat>)
  {
    && 1 <= i <= |s2| && 1 <= j <= |s1| + 1 && |y| == |s1| + 1
    && forall k {:trigger y[k]} :: 0 <= k <= |s1| ==>
         y[k] == if k < j - 1 then Cell(s1, s2, i, k) else Cell(s1, s2, i-1, k)
  }

  lemma RowStart(s1: seq<int>, s2: seq<int>, i: nat, x: seq<nat>)
    requires 1 <= i <= |s2| && |x| == |s1| + 1
    requires forall k {:trigger x[k]} :: 0 <= k <= |s1| ==> x[k] == Cell(s1, s2, i-1, k)
    ensures RowSplit(s1, s2, i, 1, x)
  {
  }

  /** Writing column j-1 of row i moves the split one column on. */
  lemma RowShift(s1: seq<int>, s2: seq<int>, i: nat, j: nat, y: seq<nat>, prev: nat)
    requires RowSplit(s1, s2, i, j, y) && j <= |s1| && prev == Cell(s1, s2, i, j-1)
    ensures RowSplit(s1, s2, i, j + 1, y[j-1 := prev])
  {
    var y' := y[j-1 := prev];
    forall k | 0 <= k <= |s1|
      ensures y'[k] == if k < j then Cell(s1, s2, i, k) else Cell(s1, s2, i-1, k)
    {
      if k != j - 1 {
        assert y'[k] == y[k];
      }
    }
  }

  /** Writing the last column completes row i. */
  lemma RowDone(s1: seq<int>, s2: seq<int>, i: nat, y: seq<nat>, prev: nat)
    requires RowSplit(s1, s2, i, |s1| + 1, y) && prev == Cell(s1, s2, i, |s1|)
    ensures forall k {:trigger y[|s1| := prev][k]} :: 0 <= k <= |s1| ==> y[|s1| := prev][k] == Cell(s1, s2, i, k)
  {
    forall k | 0 <= k <= |s1|
      ensures y[|s1| := prev][k] == Cell(s1, s2, i, k)
    {
      if k < |s1| {
        assert y[|s1| := prev][k] == y[k];
      }
    }
  }

  /** Cell (i, j) of the bounded pass from its diagonal, left and upper
      neighbours: the diagonal on a match, otherwise the smallest of the
      three plus one, grouped as (diagonal, left) then up. Every cell is
      below the sentinel. */
  method CellMax(s1: seq<int>, s2: seq<int>, i: nat, j: nat, diag: nat, left: nat, up: nat)
    returns (current: nat)
    requires 1 <= i <= |s2| <= MaxRunes && 1 <= j <= |s1| <= MaxRunes
    requires diag == Cell(s1, s2, i-1, j-1) && left == Cell(s1, s2, i, j-1) && up == Cell(s1, s2, i-1, j)
    ensures current == Cell(s1, s2, i, j) && current < Unset && left < Unset
  {
    current := diag;
    if s2[i-1] != s1[j-1] {
      current := Min(Min(diag + 1, left + 1), up + 1);
    }
    CellRecurrence(s1, s2, i, j);
    CellBounds(s1, s2, i, j);
    CellBounds(s1, s2, i, j-1);
  }

  /** The same cell in the full pass, grouped as diagonal then (left, up). */
  method CellFull(s1: seq<int>, s2: seq<int>, i: nat, j: nat, diag: nat, left: nat, up: nat)
    returns (current: nat)
    requires 1 <= i <= |s2| && 1 <= j <= |s1|
    requires diag == Cell(s1, s2, i-1, j-1) && left == Cell(s1, s2, i, j-1) && up == Cell(s1, s2, i-1, j)
    ensures current == Cell(s1, s2, i, j)
  {
    current := diag;
    if s2[i-1] != s1[j-1] {
      current := Min(diag + 1, Min(left + 1, up + 1));
    }
    CellRecurrence(s1, s2, i, j);
  }

  /** One row of the bounded pass: from row i-1 in x, compute row i, and
      the smallest of its cells in columns 1..|s1|, found with the
      sentinel 255 meaning "none yet". */
  method NextRowMax(s1: seq<int>, s2: seq<int>, i: nat, x: seq<nat>) returns (y: seq<nat>, rowDist: nat)
    requires 1 <= i <= |s2| <= MaxRunes && 1 <= |s1| <= MaxRunes
    requires |x| == |s1| + 1 && forall k {:trigger x[k]} :: 0 <= k <= |s1| ==> x[k] == Cell(s1, s2, i-1, k)
    ensures |y| == |s1| + 1 && forall k {:trigger y[k]} :: 0 <= k <= |s1| ==> y[k] == Cell(s1, s2, i, k)
    ensures rowDist == RowMin(s1, s2, i, |s1|)
    ensures exists k :: 1 <= k <= |s1| && rowDist == Cell(s1, s2, i, k)
    ensures forall k :: 1 <= k <= |s1| ==> rowDist <= Cell(s1, s2, i, k)
  {
    y := x;
    var prev: nat := i;
    rowDist := Unset;
    var j := 1;
    RowStart(s1, s2, i, x);
    while j <= |s1|
      invariant 1 <= j <= |s1| + 1
      invariant prev == Cell(s1, s2, i, j-1)
      invariant RowSplit(s1, s2, i, j, y)
      invariant j == 1 ==> rowDist == Unset
      invariant j > 1 ==> rowDist == RowMin(s1, s2, i, j-1) && rowDist <= prev
    {
      var current := CellMax(s1, s2, i, j, y[j-1], prev, y[j]);
      if current < rowDist || rowDist == Unset {
        rowDist := current;
      }
      RowShift(s1, s2, i, j, y, prev);
      y := y[j-1 := prev];
      prev := current;
      j := j + 1;
    }
    RowDone(s1, s2, i, y, prev);
    y := y[|s1| := prev];
    RowMinIsLeast(s1, s2, i, |s1|);
  }

  /** The bounded pass. An empty operand gives the other's length, equal
      operands give 0; otherwise the shorter string indexes the columns
      and rows are computed one at a time, giving up with (max, true) as
      soon as a positive cap is below every cell of a row. A result that
      is not given up is the exact distance, which may still exceed the
      cap: only a row wholly above it stops the pass. */
  method ComputeDistanceMax(a: seq<int>, b: seq<int>, max: int) returns (dist: int, aborted: bool)
    requires |a| <= MaxRunes && |b| <= MaxRunes
    ensures aborted ==> max > 0 && dist == max && Lev(a, b) > max
    ensures !aborted ==> dist == Lev(a, b)
    ensures aborted <==> AbortsAt(a, b, max)
  {
    if |a| == 0 {
      dist := |b|;
      if max > 0 && dist > max {
        return max, true;
      }
      return dist, false;
    }
    if |b| == 0 {
      dist := |a|;
      if max > 0 && dist > max {
        return max, true;
      }
      return dist, false;
    }
    if a == b {
      LevZero(a, b);
      return 0, false;
    }
    var s1, s2 := a, b;
    if |s1| > |s2| {
      s1, s2 := s2, s1;
    }
    assert s1 == Shorter(a, b) && s2 == Longer(a, b);
    assert Lev(s1, s2) == Lev(a, b) by {
      LevSymmetric(a, b);
    }
    dist, aborted := BoundedRows(s1, s2, max);
  }

  /** The row loop of the bounded pass, s1 indexing the columns: row 0 is
      0, 1, ..., |s1|, and each later row is computed from the one before
      until one lies wholly above a positive cap. */
  method BoundedRows(s1: seq<int>, s2: seq<int>, max: int) returns (dist: int, aborted: bool)
    requires 1 <= |s1| <= MaxRunes && 1 <= |s2| <= MaxRunes
    ensures aborted ==> max > 0 && dist == max && Lev(s1, s2) > max
    ensures !aborted ==> dist == Lev(s1, s2)
    ensures aborted <==> max > 0 && exists i :: 1 <= i <= |s2| && RowExceeds(s1, s2, i, max)
  {
    var x: seq<nat> := seq(|s1| + 1, k requires 0 <= k <= |s1| => k);
    var i := 1;
    while i <= |s2|
      invariant 1 <= i <= |s2| + 1
      invariant |x| == |s1| + 1 && forall k {:trigger x[k]} :: 0 <= k <= |s1| ==> x[k] == Cell(s1, s2, i-1, k)
      invariant max > 0 ==> forall r :: 1 <= r < i ==> !RowExceeds(s1, s2, r, max)
    {
      var y, rowDist := NextRowMax(s1, s2, i, x);
      if Exceeds(rowDist, max) {
        assert RowExceeds(s1, s2, i, max);
        RowMinimumSound(s1, s2, i, max);
        return max, true;
      }
      x := y;
      i := i + 1;
    }
    return x[|s1|], false;
  }

  /** One row of the full pass: from row i-1 in x, compute row i. */
  method NextRow(s1: seq<int>, s2: seq<int>, i: nat, x: seq<nat>) returns (y: seq<nat>)
    requires 1 <= i <= |s2| && |x| == |s1| + 1
    requires forall k {:trigger x[k]} :: 0 <= k <= |s1| ==> x[k] == Cell(s1, s2, i-1, k)
    ensures |y| == |s1| + 1 && forall k {:trigger y[k]} :: 0 <= k <= |s1| ==> y[k] == Cell(s1, s2, i, k)
  {
    y := x;
    var prev: nat := i;
    var j := 1;
    RowStart(s1, s2, i, x);
    while j <= |s1|
      invariant 1 <= j <= |s1| + 1
      invariant prev == Cell(s1, s2, i, j-1)
      invariant RowSplit(s1, s2, i, j, y)
    {
      var current := CellFull(s1, s2, i, j, y[j-1], prev, y[j]);
      RowShift(s1, s2, i, j, y, prev);
      y := y[j-1 := prev];
      prev := current;
      j := j + 1;
    }
    RowDone(s1, s2, i, y, prev);
    y := y[|s1| := prev];
  }

  /** Appending row i to the first i rows of the matrix gives the first
      i + 1 rows. */
  lemma AppendRow(s1: seq<int>, s2: seq<int>, m: seq<int>, x: seq<nat>, i: nat)
    requires i <= |s2| && |x| == |s1| + 1 && forall k {:trigger x[k]} :: 0 <= k <= |s1| ==> x[k] == Cell(s1, s2, i, k)
    requires MatrixRows(s1, s2, m, i)
    ensures MatrixRows(s1, s2, m + x, i + 1)
  {
    var rl := Width(s1);
    assert rl * (i + 1) == rl * i + rl;
    forall r: nat, c: nat | r < i + 1 && c <= |s1|
      ensures Idx(rl, r, c) < |m + x| && (m + x)[Idx(rl, r, c)] == Cell(s1, s2, r, c)
    {
      if r == i {
        assert Idx(rl, r, c) == |m| + c;
      } else {
        assert Idx(rl, r, c) < |m| && m[Idx(rl, r, c)] == Cell(s1, s2, r, c);
      }
    }
  }

  /** The rows of the full pass, from row 0 (0, 1, ..., |s1|) down to row
      |s2|: the last row, and, when keep is set, every row stored one after
      another (otherwise nothing is stored). */
  method Rows(s1: seq<int>, s2: seq<int>, keep: bool) returns (x: seq<nat>, m: seq<int>)
    ensures |x| == |s1| + 1 && forall k {:trigger x[k]} :: 0 <= k <= |s1| ==> x[k] == Cell(s1, s2, |s2|, k)
    ensures keep ==> IsMatrix(s1, s2, m)
    ensures !keep ==> m == []
  {
    m := [];
    x := seq(|s1| + 1, k requires 0 <= k <= |s1| => k);
    if keep {
      AppendRow(s1, s2, m, x, 0);
      m := m + x;
    }
    var i := 1;
    while i <= |s2|
      invariant 1 <= i <= |s2| + 1
      invariant |x| == |s1| + 1 && forall k {:trigger x[k]} :: 0 <= k <= |s1| ==> x[k] == Cell(s1, s2, i-1, k)
      invariant !keep ==> m == []
      invariant keep ==> MatrixRows(s1, s2, m, i)
    {
      x := NextRow(s1, s2, i, x);
      if keep {
        AppendRow(s1, s2, m, x, i);
        m := m + x;
      }
      i := i + 1;
    }
  }

  /** What the full pass returns for (a, b): the exact distance; equal
      operands unchanged; an empty operand's partner as a single `del` span
      in the first view and `ins` span in the second (and the reverse); no
      views for other pairs unless diff is set; views that describe both
      strings whenever any are produced; and for a traced pair, each rune
      of the first view in the span of its step of the traceback's script. */
  predicate FullResult(a: seq<int>, b: seq<int>, diff: bool, dist: int, d1: seq<Token>, d2: seq<Token>)
  {
    && dist == Lev(a, b)
    && (a == b ==> d1 == Plain(a) && d2 == Plain(b))
    && (a != b && |a| == 0 ==> d1 == Wrap(Del, b) && d2 == Wrap(Ins, b))
    && (a != b && |a| > 0 && |b| == 0 ==> d1 == Wrap(Ins, a) && d2 == Wrap(Del, a))
    && (!diff && a != b && |a| > 0 && |b| > 0 ==> d1 == [] && d2 == [])
    && (diff || a == b || |a| == 0 || |b| == 0 ==> Describes(a, b, dist, d1, d2))
    && (diff && a != b && |a| > 0 && |b| > 0 ==> Spans(d1) == EventSpans(Script(a, b, |b|, |a|)))
  }

  /** The full pass. Equal operands come back unchanged; an empty operand
      makes the other one a single deleted span in the first view and a
      single inserted span in the second (and the reverse); otherwise the
      matrix is computed row by row, kept only when diff is set, and the
      traceback renders it. Without diff the views of distinct non-empty
      operands are empty. */
  method ComputeDistance(a: seq<int>, b: seq<int>, diff: bool) returns (dist: int, d1: seq<Token>, d2: seq<Token>)
    requires |a| <= MaxRunes && |b| <= MaxRunes
    ensures FullResult(a, b, diff, dist, d1, d2)
  {
    if a == b {
      LevZero(a, b);
      PlainFacts(a);
      return 0, Plain(a), Plain(b);
    }
    if |a| == 0 {
      WrapFacts(Del, b);
      WrapFacts(Ins, b);
      assert a == [];
      return |b|, Wrap(Del, b), Wrap(Ins, b);
    }
    if |b| == 0 {
      WrapFacts(Ins, a);
      WrapFacts(Del, a);
      assert b == [];
      return |a|, Wrap(Ins, a), Wrap(Del, a);
    }
    var s1, s2 := a, b;
    var x, m := Rows(s1, s2, diff);
    dist := x[|s1|];
    d1, d2 := [], [];
    if diff {
      d1, d2 := TraceBack(s1, s2, m);
    }
  }
}

=== FILE: events.dfy ===
/** Edit events produced by the traceback and consumed by the renderer. */
module Events {

  /** The engine's event kinds, in declaration order. `None` only ever
      marks "no previous event" inside the renderer. */
  datatype EventType = None | Same | Subst | Ins | Del

  /** One step of an edit script. `Ins` consumes a rune of the first
      string only, `Del` a rune of the second string only, `Same` and
      `Subst` one rune of each. */
  type Edit = e: EventType | e != None witness Same

  /** Tag name of an event kind; only the three edit kinds have one. */
  function Name(e: EventType): (r: string)
    ensures |r| > 0 <==> e == Subst || e == Ins || e == Del
  {
    match e
    case Subst => "subst"
    case Ins => "ins"
    case Del => "del"
    case _ => ""
  }

  /** Different edit kinds have different tag names, so the markers of
      different kinds are different text. */
  lemma NamesDistinct(e1: EventType, e2: EventType)
    ensures |Name(e1)| > 0 && Name(e1) == Name(e2) ==> e1 == e2
  {
  }

  /** The same event seen from the other string: insertions and
      deletions trade places, everything else stays. */
  function Invert(e: EventType): (r: EventType)
    ensures r == None <==> e == None
    ensures r == Same <==> e == Same
    ensures r == Subst <==> e == Subst
  {
    if e == Ins then Del
    else if e == Del then Ins
    else e
  }

  lemma InvertInvolution(e: EventType)
    ensures Invert(Invert(e)) == e
    ensures e == Ins <==> Invert(e) == Del
  {
  }

  /** Runes of the first string that ev consumes. */
  function Consumed1(ev: seq<Edit>): nat
  {
    if |ev| == 0 then 0 else (if ev[0] == Del then 0 else 1) + Consumed1(ev[1..])
  }

  /** Runes of the second string that ev consumes. */
  function Consumed2(ev: seq<Edit>): nat
  {
    if |ev| == 0 then 0 else (if ev[0] == Ins then 0 else 1) + Consumed2(ev[1..])
  }

  /** Number of edits (every event but `Same`) in ev. */
  function Cost(ev: seq<Edit>): nat
  {
    if |ev| == 0 then 0 else (if ev[0] == Same then 0 else 1) + Cost(ev[1..])
  }

  /** Peeling the first event off a suffix, and a suffix never consumes
      more than the whole script. */
  lemma {:induction false} SuffixStep(ev: seq<Edit>, j: nat)
    requires j < |ev|
    ensures Consumed1(ev[j..]) == Consumed1(ev[j+1..]) + (if ev[j] == Del then 0 else 1)
    ensures Consumed2(ev[j..]) == Consumed2(ev[j+1..]) + (if ev[j] == Ins then 0 else 1)
    ensures Cost(ev[j..]) == Cost(ev[j+1..]) + (if ev[j] == Same then 0 else 1)
    ensures Consumed1(ev[j..]) <= Consumed1(ev) && Consumed2(ev[j..]) <= Consumed2(ev)
  {
    assert ev[j..][1..] == ev[j+1..];
    SuffixBound(ev, j);
  }

  /** Dropping a prefix never makes a script consume more. */
  lemma {:induction false} SuffixBound(ev: seq<Edit>, j: nat)
    requires j <= |ev|
    ensures Consumed1(ev[j..]) <= Consumed1(ev) && Consumed2(ev[j..]) <= Consumed2(ev)
  {
    if j > 0 {
      assert ev[1..][j-1..] == ev[j..];
      SuffixBound(ev[1..], j - 1);
    } else {
      assert ev[0..] == ev;
    }
  }
}

=== FILE: lev.dfy ===
/** Reference definition of the Levenshtein distance, stated on prefixes
    of two rune sequences, and the facts about it that the dynamic
    programming passes, the traceback and the early abort rely on. */
module EditDistance {

  /** Smaller of two cells; on a tie the first one, as the engine's `min`. */
  function Min(a: nat, b: nat): (r: nat)
    ensures r <= a && r <= b
    ensures r == a || r == b
  {
    if b < a then b else a
  }

  /** Cell (i, j) of the distance matrix: the edit distance between the
      first i runes of s2 (rows) and the first j runes of s1 (columns).
      Matching runes take the diagonal; otherwise one plus the cheapest of
      diagonal (substitution), left and up. */
  function Cell(s1: seq<int>, s2: seq<int>, i: nat, j: nat): nat
    requires i <= |s2| && j <= |s1|
    decreases i + j
  {
    if i == 0 then j
    else if j == 0 then i
    else if s2[i-1] == s1[j-1] then Cell(s1, s2, i-1, j-1)
    else 1 + Min(Cell(s1, s2, i-1, j-1), Min(Cell(s1, s2, i, j-1), Cell(s1, s2, i-1, j)))
  }

  /** The recurrence a cell obeys, in the two groupings of the three
      candidates the engine's passes use. */
  lemma CellRecurrence(s1: seq<int>, s2: seq<int>, i: nat, j: nat)
    requires 1 <= i <= |s2| && 1 <= j <= |s1|
    ensures s2[i-1] == s1[j-1] ==> Cell(s1, s2, i, j) == Cell(s1, s2, i-1, j-1)
    ensures s2[i-1] != s1[j-1] ==>
      Cell(s1, s2, i, j) == Min(Min(Cell(s1, s2, i-1, j-1) + 1, Cell(s1, s2, i, j-1) + 1), Cell(s1, s2, i-1, j) + 1)
    ensures s2[i-1] != s1[j-1] ==>
      Cell(s1, s2, i, j) == Min(Cell(s1, s2, i-1, j-1) + 1, Min(Cell(s1, s2, i, j-1) + 1, Cell(s1, s2, i-1, j) + 1))
  {
  }

  /** Edit distance between a and b; a indexes the columns, b the rows. */
  function Lev(a: seq<int>, b: seq<int>): nat
  {
    Cell(a, b, |b|, |a|)
  }

  /** The matrix of (s1, s2) is the transpose of the matrix of (s2, s1). */
  lemma {:induction false} CellSymmetric(s1: seq<int>, s2: seq<int>, i: nat, j: nat)
    requires i <= |s2| && j <= |s1|
    ensures Cell(s1, s2, i, j) == Cell(s2, s1, j, i)
    decreases i + j
  {
    if i > 0 && j > 0 {
      var d, l, u := Cell(s1, s2, i-1, j-1), Cell(s1, s2, i, j-1), Cell(s1, s2, i-1, j);
      assert d == Cell(s2, s1, j-1, i-1) by { CellSymmetric(s1, s2, i-1, j-1); }
      assert l == Cell(s2, s1, j-1, i) by { CellSymmetric(s1, s2, i, j-1); }
      assert u == Cell(s2, s1, j, i-1) by { CellSymmetric(s1, s2, i-1, j); }
      assert Cell(s1, s2, i, j) == if s2[i-1] == s1[j-1] then d else 1 + Min(d, Min(l, u));
      assert Cell(s2, s1, j, i) == if s1[j-1] == s2[i-1] then d else 1 + Min(d, Min(u, l));
    }
  }

  /** Swapping the operands does not change the distance. */
  lemma LevSymmetric(a: seq<int>, b: seq<int>)
    ensures Lev(a, b) == Lev(b, a)
  {
    CellSymmetric(a, b, |b|, |a|);
  }

  /** A cell lies between the difference and the larger of the prefix lengths. */
  lemma {:induction false} CellBounds(s1: seq<int>, s2: seq<int>, i: nat, j: nat)
    requires i <= |s2| && j <= |s1|
    ensures i - j <= Cell(s1, s2, i, j) && j - i <= Cell(s1, s2, i, j)
    ensures Cell(s1, s2, i, j) <= if i < j then j else i
  {
    CellLower(s1, s2, i, j);
    CellUpper(s1, s2, i, j);
  }

  /** Lower half of CellBounds: a cell is at least the length difference. */
  lemma {:induction false} CellLower(s1: seq<int>, s2: seq<int>, i: nat, j: nat)
    requires i <= |s2| && j <= |s1|
    ensures i - j <= Cell(s1, s2, i, j) && j - i <= Cell(s1, s2, i, j)
    decreases i + j
  {
    if i > 0 && j > 0 {
      var d, l, u := Cell(s1, s2, i-1, j-1), Cell(s1, s2, i, j-1), Cell(s1, s2, i-1, j);
      assert Cell(s1, s2, i, j) == if s2[i-1] == s1[j-1] then d else 1 + Min(d, Min(l, u));
      assert i - j <= d && j - i <= d by { CellLower(s1, s2, i-1, j-1); }
      assert i - j < l && j - i <= l + 1 by { CellLower(s1, s2, i, j-1); }
      assert i - j <= u + 1 && j - i < u by { CellLower(s1, s2, i-1, j); }
    }
  }

  /** Upper half of CellBounds: a cell is at most the longer prefix length. */
  lemma {:induction false} CellUpper(s1: seq<int>, s2: seq<int>, i: nat, j: nat)
    requires i <= |s2| && j <= |s1|
    ensures Cell(s1, s2, i, j) <= if i < j then j else i
    decreases i + j
  {
    if i > 0 && j > 0 {
      var d := Cell(s1, s2, i-1, j-1);
      assert Cell(s1, s2, i, j) <= d + 1;
      assert d < (if i < j then j else i) by { CellUpper(s1, s2, i-1, j-1); }
    }
  }

  /** ||a| - |b|| <= Lev(a, b) <= max(|a|, |b|). */
  lemma LevBounds(a: seq<int>, b: seq<int>)
    ensures |a| - |b| <= Lev(a, b) && |b| - |a| <= Lev(a, b)
    ensures Lev(a, b) <= if |a| < |b| then |b| else |a|
  {
    CellBounds(a, b, |b|, |a|);
  }

  /** A zero cell means equal-length prefixes that are equal. */
  lemma {:induction false} CellZero(s1: seq<int>, s2: seq<int>, i: nat, j: nat)
    requires i <= |s2| && j <= |s1|
    ensures Cell(s1, s2, i, j) == 0 <==> i == j && s1[..j] == s2[..i]
  {
    if Cell(s1, s2, i, j) == 0 {
      ZeroCellEqual(s1, s2, i, j);
    }
    if i == j && s1[..j] == s2[..i] {
      EqualPrefixZero(s1, s2, i);
    }
  }

  /** One direction of CellZero: a zero cell sits on equal prefixes. */
  lemma {:induction false} ZeroCellEqual(s1: seq<int>, s2: seq<int>, i: nat, j: nat)
    requires i <= |s2| && j <= |s1| && Cell(s1, s2, i, j) == 0
    ensures i == j && s1[..j] == s2[..i]
    decreases i + j
  {
    if i > 0 && j > 0 {
      assert s2[i-1] == s1[j-1];
      ZeroCellEqual(s1, s2, i-1, j-1);
      assert s1[..j] == s1[..j-1] + [s1[j-1]] && s2[..i] == s2[..i-1] + [s2[i-1]];
    }
  }

  /** The other direction of CellZero: equal prefixes give a zero cell. */
  lemma {:induction false} EqualPrefixZero(s1: seq<int>, s2: seq<int>, n: nat)
    requires n <= |s2| && n <= |s1| && s1[..n] == s2[..n]
    ensures Cell(s1, s2, n, n) == 0
  {
    if n > 0 {
      assert s1[n-1] == s1[..n][n-1] && s2[n-1] == s2[..n][n-1];
      assert s1[..n-1] == s1[..n][..n-1] && s2[..n-1] == s2[..n][..n-1];
      EqualPrefixZero(s1, s2, n - 1);
    }
  }

  /** The distance is zero exactly for equal sequences. */
  lemma LevZero(a: seq<int>, b: seq<int>)
    ensures Lev(a, b) == 0 <==> a == b
  {
    CellZero(a, b, |b|, |a|);
    assert a[..|a|] == a && b[..|b|] == b;
  }

  /** Adjacent cells differ by at most one, and a cell exceeds its diagonal
      predecessor by at most one. */
  lemma {:induction false} Neighbours(s1: seq<int>, s2: seq<int>, i: nat, j: nat)
    requires i <= |s2| && j <= |s1|
    ensures i > 0 ==> Cell(s1, s2, i, j) <= Cell(s1, s2, i-1, j) + 1
    ensures i > 0 ==> Cell(s1, s2, i-1, j) <= Cell(s1, s2, i, j) + 1
    ensures j > 0 ==> Cell(s1, s2, i, j) <= Cell(s1, s2, i, j-1) + 1
    ensures j > 0 ==> Cell(s1, s2, i, j-1) <= Cell(s1, s2, i, j) + 1
    ensures i > 0 && j > 0 ==> Cell(s1, s2, i, j) <= Cell(s1, s2, i-1, j-1) + 1
    decreases i + j
  {
    if i > 0 && j > 0 {
      var d, l, u := Cell(s1, s2, i-1, j-1), Cell(s1, s2, i, j-1), Cell(s1, s2, i-1, j);
      assert Cell(s1, s2, i, j) == if s2[i-1] == s1[j-1] then d else 1 + Min(d, Min(l, u));
      assert u <= d + 1 && d <= u + 1 by { Neighbours(s1, s2, i-1, j); }
      assert d <= l + 1 && l <= d + 1 by { Neighbours(s1, s2, i, j-1); }
    }
  }

  /** If every cell of row i is at least m, so is every cell of row i+1. */
  lemma {:induction false} NextRowFloor(s1: seq<int>, s2: seq<int>, i: nat, j: nat, m: int)
    requires i < |s2| && j <= |s1|
    requires forall k :: 0 <= k <= |s1| ==> Cell(s1, s2, i, k) >= m
    ensures Cell(s1, s2, i+1, j) >= m
    decreases j
  {
    if j > 0 {
      NextRowFloor(s1, s2, i, j-1, m);
      assert Cell(s1, s2, i, j-1) >= m && Cell(s1, s2, i, j) >= m;
    } else {
      assert Cell(s1, s2, i, 0) >= m;
    }
  }

  /** A floor on a whole row is a floor on the final cell. */
  lemma {:induction false} RowFloorReachesEnd(s1: seq<int>, s2: seq<int>, i: nat, m: int)
    requires i <= |s2|
    requires forall k :: 0 <= k <= |s1| ==> Cell(s1, s2, i, k) >= m
    ensures Cell(s1, s2, |s2|, |s1|) >= m
    decreases |s2| - i
  {
    if i < |s2| {
      var next := i + 1;
      forall k | 0 <= k <= |s1|
        ensures Cell(s1, s2, next, k) >= m
      {
        NextRowFloor(s1, s2, i, k, m);
      }
      RowFloorReachesEnd(s1, s2, next, m);
    }
  }

  /** The early abort is sound: once every cell of columns 1..|s1| of some
      row exceeds m, the final distance exceeds m. Column 0 need not be
      inspected, because it is never below column 1. */
  lemma RowMinimumSound(s1: seq<int>, s2: seq<int>, i: nat, m: int)
    requires 1 <= i <= |s2| && 1 <= |s1|
    requires forall k :: 1 <= k <= |s1| ==> Cell(s1, s2, i, k) > m
    ensures Cell(s1, s2, |s2|, |s1|) > m
  {
    CellBounds(s1, s2, i, 1);
    assert Cell(s1, s2, i, 0) >= Cell(s1, s2, i, 1);
    RowFloorReachesEnd(s1, s2, i, m + 1);
  }
}

=== FILE: levenshtein.dfy ===
/** The comparator: its configuration, built from options, the comparison
    of one pair (bounded pass first when a cap is set, then the full
    pass), and the reassembly of a batch of comparisons in input order. */
module Comparator {
  import opened EditDistance
  import opened Events
  import opened Tags
  import opened Distance

  /** Configuration: whether to render the differences, and the cap on the
      distance (0 or less: no cap). The zero value is (false, 0). */
  datatype Levenshtein = Levenshtein(withDiff: bool, maxEditDist: int)

  /** A setter of one configuration field. */
  datatype Option = OptWithDiff(b: bool) | OptMaxEditDist(i: int)

  /** A pair of strings to compare. */
  datatype Strings = Strings(string1: seq<int>, string2: seq<int>)

  /** The result of one comparison: the inputs, their tagged views (empty
      unless rendered), the distance (the cap when given up) and whether
      the bounded pass gave up. */
  datatype Output = Output(string1: seq<int>, string2: seq<int>, tags1: seq<Token>, tags2: seq<Token>,
                           editDist: int, aborted: bool)

  /** Applies one option: it sets its own field and leaves the other. */
  function Apply(opt: Option, l: Levenshtein): (r: Levenshtein)
    ensures opt.OptWithDiff? ==> r.withDiff == opt.b && r.maxEditDist == l.maxEditDist
    ensures opt.OptMaxEditDist? ==> r.maxEditDist == opt.i && r.withDiff == l.withDiff
  {
    match opt
    case OptWithDiff(b) => l.(withDiff := b)
    case OptMaxEditDist(i) => l.(maxEditDist := i)
  }

  /** The zero configuration with the options applied in order. Each field
      keeps its zero value unless some option sets it. */
  function NewLevenshtein(opts: seq<Option>): (r: Levenshtein)
    ensures r.withDiff ==> OptWithDiff(true) in opts
    ensures r.maxEditDist != 0 ==> OptMaxEditDist(r.maxEditDist) in opts
  {
    if |opts| == 0 then Levenshtein(false, 0)
    else Apply(opts[|opts|-1], NewLevenshtein(opts[..|opts|-1]))
  }

  /** The last option that sets `withDiff` decides it. */
  lemma {:induction false} LastWithDiffWins(opts: seq<Option>, k: nat)
    requires k < |opts| && opts[k].OptWithDiff?
    requires forall k' :: k < k' < |opts| ==> !opts[k'].OptWithDiff?
    ensures NewLevenshtein(opts).withDiff == opts[k].b
    decreases |opts|
  {
    if k < |opts| - 1 {
      var init := opts[..|opts|-1];
      assert forall k' :: k < k' < |init| ==> init[k'] == opts[k'];
      LastWithDiffWins(init, k);
    }
  }

  /** The last option that sets the cap decides it. */
  lemma {:induction false} LastMaxWins(opts: seq<Option>, k: nat)
    requires k < |opts| && opts[k].OptMaxEditDist?
    requires forall k' :: k < k' < |opts| ==> !opts[k'].OptMaxEditDist?
    ensures NewLevenshtein(opts).maxEditDist == opts[k].i
    decreases |opts|
  {
    if k < |opts| - 1 {
      var init := opts[..|opts|-1];
      assert forall k' :: k < k' < |init| ==> init[k'] == opts[k'];
      LastMaxWins(init, k);
    }
  }

  /** The options a configuration reports, from which each batch worker
      rebuilds its own: only `withDiff` is carried over, so a rebuilt
      configuration has no cap. */
  function Opts(l: Levenshtein): (r: seq<Option>)
    ensures NewLevenshtein(r) == Levenshtein(l.withDiff, 0)
  {
    var r := [OptWithDiff(l.withDiff)];
    assert r[..0] == [];
    r
  }

  /** Whether an output is what a comparison with configuration l yields
      when the bounded pass did not give up: the full pass's result for the
      pair, the exact distance with the views it draws for l.withDiff. */
  predicate Finished(l: Levenshtein, o: Output)
  {
    && !o.aborted
    && FullResult(o.string1, o.string2, l.withDiff, o.editDist, o.tags1, o.tags2)
  }

  /** Compares one pair. With a positive cap the bounded pass runs first;
      if it gave up, the output carries the cap and no views, otherwise
      the full pass supplies the distance and the views. */
  method Compare(l: Levenshtein, str1: seq<int>, str2: seq<int>) returns (o: Output)
    requires |str1| <= MaxRunes && |str2| <= MaxRunes
    ensures o.string1 == str1 && o.string2 == str2
    ensures o.aborted <==> l.maxEditDist > 0 && AbortsAt(str1, str2, l.maxEditDist)
    ensures o.aborted ==> o.editDist == l.maxEditDist < Lev(str1, str2) && o.tags1 == [] && o.tags2 == []
    ensures !o.aborted ==> Finished(l, o)
  {
    var ed := 0;
    var t1: seq<Token>, t2: seq<Token> := [], [];
    var aborted := false;
    if l.maxEditDist > 0 {
      ed, aborted := ComputeDistanceMax(str1, str2, l.maxEditDist);
    }
    if !aborted {
      ed, t1, t2 := ComputeDistance(str1, str2, l.withDiff);
    }
    o := Output(str1, str2, t1, t2, ed, aborted);
  }

  /** The text the batch's keys are computed from: the two strings joined
      by vertical tab, '|', vertical tab. */
  function JoinKey(s1: seq<int>, s2: seq<int>): (r: seq<int>)
    ensures |r| == |s1| + |s2| + 3
    ensures r[..|s1|] == s1 && r[|s1|..|s1| + 3] == [11, 124, 11] && r[|s1| + 3..] == s2
  {
    s1 + [11, 124, 11] + s2
  }

  /** Two different pairs with the same joined text, hence the same key
      whatever the hash: ("a\v|\v", "b") and ("a", "\v|\vb"). */
  lemma JoinKeyCollides()
    ensures Strings([97, 11, 124, 11], [98]) != Strings([97], [11, 124, 11, 98])
    ensures JoinKey([97, 11, 124, 11], [98]) == JoinKey([97], [11, 124, 11, 98])
  {
  }

  /** Every index below n occurs in order, and nothing else does: the order
      in which the n comparisons of a batch complete. */
  predicate IsArrival(order: seq<nat>, n: nat)
  {
    && |order| == n
    && (forall k :: 0 <= k < |order| ==> order[k] < n)
    && (forall i :: 0 <= i < n ==> i in order)
  }

  /** Every pair of a batch fits the engine's cells. */
  predicate Fits(inp: seq<Strings>)
  {
    forall i :: 0 <= i < |inp| ==> |inp[i].string1| <= MaxRunes && |inp[i].string2| <= MaxRunes
  }

  /** The key a pair's output is stored under: the hash of the joined strings. */
  function KeyOf<K>(hash: seq<int> -> K, s1: seq<int>, s2: seq<int>): K
  {
    hash(JoinKey(s1, s2))
  }

  /** Every entry of outMap sits under its own key and is the finished
      comparison of some input pair. */
  ghost predicate Collected<K>(l: Levenshtein, inp: seq<Strings>, hash: seq<int> -> K, outMap: map<K, Output>)
  {
    forall key :: key in outMap ==>
      && KeyOf(hash, outMap[key].string1, outMap[key].string2) == key
      && |outMap[key].string1| <= MaxRunes && |outMap[key].string2| <= MaxRunes
      && Finished(l, outMap[key])
      && exists p :: 0 <= p < |inp| && outMap[key].string1 == inp[p].string1
                                    && outMap[key].string2 == inp[p].string2
  }

  /** The workers and the collector, sequentially: every pair is compared
      by a worker configured from Opts(l), and the outputs, in the order
      they arrive, are stored under their keys, a later output replacing an
      earlier one with the same key. */
  method CollectOutputs<K(==)>(l: Levenshtein, inp: seq<Strings>, order: seq<nat>, hash: seq<int> -> K)
    returns (outMap: map<K, Output>)
    requires Fits(inp) && IsArrival(order, |inp|)
    ensures Collected(l, inp, hash, outMap)
    ensures forall i :: 0 <= i < |inp| ==> KeyOf(hash, inp[i].string1, inp[i].string2) in outMap
  {
    var w := NewLevenshtein(Opts(l));
    outMap := map[];
    var k := 0;
    while k < |order|
      invariant 0 <= k <= |order|
      invariant Collected(l, inp, hash, outMap)
      invariant forall k' :: 0 <= k' < k ==> KeyOf(hash, inp[order[k']].string1, inp[order[k']].string2) in outMap
    {
      var v := inp[order[k]];
      var out := Compare(w, v.string1, v.string2);
      CollectedStore(l, inp, hash, outMap, out, order[k]);
      outMap := outMap[KeyOf(hash, out.string1, out.string2) := out];
      k := k + 1;
    }
    forall i | 0 <= i < |inp|
      ensures KeyOf(hash, inp[i].string1, inp[i].string2) in outMap
    {
      assert i in order;
      var k' :| 0 <= k' < |order| && order[k'] == i;
    }
  }

  /** Storing the finished comparison of an input pair under its key keeps
      the collection sound. */
  lemma CollectedStore<K>(l: Levenshtein, inp: seq<Strings>, hash: seq<int> -> K, outMap: map<K, Output>,
                          out: Output, p: nat)
    requires Collected(l, inp, hash, outMap)
    requires p < |inp| && out.string1 == inp[p].string1 && out.string2 == inp[p].string2
    requires |out.string1| <= MaxRunes && |out.string2| <= MaxRunes && Finished(l, out)
    ensures Collected(l, inp, hash, outMap[KeyOf(hash, out.string1, out.string2) := out])
  {
  }

  /** The result list: for each input, in input order, the entry stored
      under its key. */
  method Reassemble<K(==)>(inp: seq<Strings>, hash: seq<int> -> K, outMap: map<K, Output>)
    returns (res: seq<Output>)
    requires forall i :: 0 <= i < |inp| ==> KeyOf(hash, inp[i].string1, inp[i].string2) in outMap
    ensures |res| == |inp|
    ensures forall i :: 0 <= i < |inp| ==> res[i] == outMap[KeyOf(hash, inp[i].string1, inp[i].string2)]
  {
    res := [];
    var i := 0;
    while i < |inp|
      invariant 0 <= i <= |inp| && |res| == i
      invariant forall i' :: 0 <= i' < i ==> res[i'] == outMap[KeyOf(hash, inp[i'].string1, inp[i'].string2)]
    {
      res := res + [outMap[KeyOf(hash, inp[i].string1, inp[i].string2)]];
      i := i + 1;
    }
  }

  /** The batch comparison: collect, then reassemble. Each result has its
      input's key and is a finished comparison; inputs with equal keys get
      the same result; and only when no two different inputs share a key is
      every result the comparison of its own input. */
  method CompareMult<K(==)>(l: Levenshtein, inp: seq<Strings>, order: seq<nat>, hash: seq<int> -> K)
    returns (res: seq<Output>)
    requires Fits(inp) && IsArrival(order, |inp|)
    ensures |res| == |inp|
    ensures forall i :: 0 <= i < |inp| ==>
              KeyOf(hash, res[i].string1, res[i].string2) == KeyOf(hash, inp[i].string1, inp[i].string2)
    ensures forall i :: 0 <= i < |inp| ==>
              |res[i].string1| <= MaxRunes && |res[i].string2| <= MaxRunes && Finished(l, res[i])
    ensures forall i, i' :: 0 <= i < |inp| && 0 <= i' < |inp| &&
              KeyOf(hash, inp[i].string1, inp[i].string2) == KeyOf(hash, inp[i'].string1, inp[i'].string2)
              ==> res[i] == res[i']
    ensures (forall i, i' :: 0 <= i < |inp| && 0 <= i' < |inp| &&
               KeyOf(hash, inp[i].string1, inp[i].string2) == KeyOf(hash, inp[i'].string1, inp[i'].string2)
               ==> inp[i] == inp[i'])
            ==> forall i :: 0 <= i < |inp| ==> res[i].string1 == inp[i].string1 && res[i].string2 == inp[i].string2
  {
    var outMap := CollectOutputs(l, inp, order, hash);
    res := Reassemble(inp, hash, outMap);
    if forall i, i' :: 0 <= i < |inp| && 0 <= i' < |inp| &&
         KeyOf(hash, inp[i].string1, inp[i].string2) == KeyOf(hash, inp[i'].string1, inp[i'].string2)
         ==> inp[i] == inp[i'] {
      forall i | 0 <= i < |inp|
        ensures res[i].string1 == inp[i].string1 && res[i].string2 == inp[i].string2
      {
        var key := KeyOf(hash, inp[i].string1, inp[i].string2);
        var p :| 0 <= p < |inp| && outMap[key].string1 == inp[p].string1 && outMap[key].string2 == inp[p].string2;
        assert inp[p] == inp[i];
      }
    }
  }

  /** The batch comparison with each unit of work carrying its input
      position: outputs are stored under that position, so the result for
      each input is the comparison of that very pair whatever the arrival
      order, and pairs that a content key would confuse stay apart. */
  method CompareMultIndexed(l: Levenshtein, inp: seq<Strings>, order: seq<nat>) returns (res: seq<Output>)
    requires Fits(inp) && IsArrival(order, |inp|)
    ensures |res| == |inp|
    ensures forall i :: 0 <= i < |inp| ==> res[i].string1 == inp[i].string1 && res[i].string2 == inp[i].string2
    ensures forall i :: 0 <= i < |inp| ==> Finished(l, res[i])
  {
    var outMap := CollectIndexed(l, inp, order);
    res := seq(|inp|, i requires 0 <= i < |inp| => outMap[i]);
  }

  /** The collector keyed by input position: after every unit of work has
      arrived, each position holds the finished comparison of its own pair. */
  method CollectIndexed(l: Levenshtein, inp: seq<Strings>, order: seq<nat>) returns (outMap: map<nat, Output>)
    requires Fits(inp) && IsArrival(order, |inp|)
    ensures forall p :: 0 <= p < |inp| ==> p in outMap
    ensures forall p :: p in outMap ==>
              && p < |inp|
              && outMap[p].string1 == inp[p].string1 && outMap[p].string2 == inp[p].string2
              && Finished(l, outMap[p])
  {
    var w := NewLevenshtein(Opts(l));
    outMap := map[];
    var k := 0;
    while k < |order|
      invariant 0 <= k <= |order|
      invariant forall p :: p in outMap ==>
                  && p < |inp|
                  && outMap[p].string1 == inp[p].string1 && outMap[p].string2 == inp[p].string2
                  && Finished(l, outMap[p])
      invariant forall k' :: 0 <= k' < k ==> order[k'] in outMap
    {
      var p := order[k];
      var out := Compare(w, inp[p].string1, inp[p].string2);
      outMap := outMap[p := out];
      k := k + 1;
    }
    forall p | 0 <= p < |inp|
      ensures p in outMap
    {
      assert p in order;
      var k' :| 0 <= k' < |order| && order[k'] == p;
    }
  }
}

=== FILE: render.dfy ===
/** The renderer (`diffs`): replays an edit script forward and writes the
    two tagged views, the first string's and, with `ins` and `del`
    swapped, the second string's. */
module Render {
  import opened Events
  import opened Tags

  /** Markers written before the rune of event e when the previous event
      was prev: on the first event, open a span unless e is `Same`; on a
      change of kind, close the previous span unless it was `Same`, then
      open one unless e is `Same`; on a repeat, nothing. */
  function Markers(prev: EventType, e: Edit): (r: seq<Token>)
    ensures forall i :: 0 <= i < |r| ==> !r[i].Char?
    ensures r == (if prev != e && SpanOf(prev).Inside? then [Close(SpanOf(prev).k)] else [])
               + (if prev != e && SpanOf(e).Inside? then [Open(SpanOf(e).k)] else [])
  {
    if prev == None then (if e != Same then [Open(e)] else [])
    else if e != prev then
      (if prev != Same then [Close(prev)] else []) + (if e != Same then [Open(e)] else [])
    else []
  }

  /** A change of kind: close the previous span (unless it was `Same`)
      and open one for e (unless it is `Same`). */
  lemma ChangeStep(d: seq<Token>, prev: Edit, e: Edit)
    requires e != prev
    requires Proper(d) && State(d) == SpanOf(prev) && |d| > 0 && d[|d|-1].Char?
    ensures Proper(d + Markers(prev, e)) && State(d + Markers(prev, e)) == SpanOf(e)
    ensures Strip(d + Markers(prev, e)) == Strip(d)
    ensures TaggedCount(d + Markers(prev, e)) == TaggedCount(d)
  {
    var m := Markers(prev, e);
    if prev == Same {
      assert m == [Open(e)];
      Snoc(d, Open(e));
    } else if e == Same {
      assert m == [Close(prev)];
      Snoc(d, Close(prev));
    } else {
      var d0 := d + [Close(prev)];
      assert m == [Close(prev)] + [Open(e)];
      Assoc(d, [Close(prev)], [Open(e)]);
      CloseOpen(d, prev, e, d0);
    }
  }

  /** Closing one span and opening another of a different kind. */
  lemma CloseOpen(d: seq<Token>, prev: Edit, e: Edit, d0: seq<Token>)
    requires e != prev && e != Same && prev != Same && d0 == d + [Close(prev)]
    requires Proper(d) && State(d) == Inside(prev) && |d| > 0 && d[|d|-1].Char?
    ensures Proper(d0 + [Open(e)]) && State(d0 + [Open(e)]) == Inside(e)
    ensures Strip(d0 + [Open(e)]) == Strip(d)
    ensures TaggedCount(d0 + [Open(e)]) == TaggedCount(d)
  {
    Snoc(d, Close(prev));
    assert d0[|d0|-1] == Close(prev);
    Snoc(d0, Open(e));
  }

  /** The markers before an event move the span state to the event's kind
      and leave the described runes alone. */
  lemma MarkersStep(d: seq<Token>, prev: EventType, e: Edit)
    requires Proper(d) && State(d) == SpanOf(prev)
    requires prev == None ==> |d| == 0
    requires prev != None ==> |d| > 0 && d[|d|-1].Char?
    ensures Proper(d + Markers(prev, e)) && State(d + Markers(prev, e)) == SpanOf(e)
    ensures Strip(d + Markers(prev, e)) == Strip(d)
    ensures TaggedCount(d + Markers(prev, e)) == TaggedCount(d)
  {
    if prev == None {
      if e != Same {
        Snoc(d, Open(e));
      } else {
        assert d + Markers(prev, e) == d;
      }
    } else if e != prev {
      ChangeStep(d, prev, e);
    } else {
      assert d + Markers(prev, e) == d;
    }
  }

  /** A view written up to an event of kind prev: legal so far, inside the
      span of prev, ending in a rune once something was written, and
      describing the runes kept with tagged of them inside spans. */
  predicate ViewState(d: seq<Token>, prev: EventType, kept: seq<int>, tagged: nat)
  {
    && Proper(d) && State(d) == SpanOf(prev)
    && (prev == None ==> |d| == 0)
    && (prev != None ==> |d| > 0 && d[|d|-1].Char?)
    && Strip(d) == kept && TaggedCount(d) == tagged
  }

  /** One event written to one view: the span state follows the event,
      the view stays legal and ends in a rune, and the rune is kept by
      Strip unless the event is a deletion, tagged unless it is `Same`. */
  lemma EmitStep(d: seq<Token>, prev: EventType, e: Edit, r: int, kept: seq<int>, tagged: nat)
    requires ViewState(d, prev, kept, tagged)
    ensures ViewState(d + Markers(prev, e) + [Char(r)], e,
                      kept + (if e == Del then [] else [r]), tagged + (if e == Same then 0 else 1))
    ensures Spans(d + Markers(prev, e) + [Char(r)]) == Spans(d) + [SpanOf(e)]
  {
    MarkersStep(d, prev, e);
    AppendMarkers(d, Markers(prev, e));
    Snoc(d + Markers(prev, e), Char(r));
  }

  /** The closing marker after the last event ends every span. */
  lemma CloseLast(d: seq<Token>, e: Edit)
    requires Proper(d) && State(d) == SpanOf(e)
    requires |d| > 0 && d[|d|-1].Char?
    ensures var d' := d + (if e != Same then [Close(e)] else []);
      WellFormed(d') && Strip(d') == Strip(d) && TaggedCount(d') == TaggedCount(d)
  {
    if e != Same {
      Snoc(d, Close(e));
    } else {
      assert d + [] == d;
    }
  }

  /** The second view's markers mirror the first view's. */
  lemma MarkersMirror(prev: EventType, e: Edit)
    ensures Mirrored(Markers(prev, e), Markers(Invert(prev), Invert(e)))
  {
    InvertInvolution(prev);
    InvertInvolution(e);
    var m1, m2 := Markers(prev, e), Markers(Invert(prev), Invert(e));
    if prev == e {
      assert m1 == [] && m2 == [];
    } else {
      var c1 := if SpanOf(prev).Inside? then [Close(SpanOf(prev).k)] else [];
      var c2 := if SpanOf(Invert(prev)).Inside? then [Close(SpanOf(Invert(prev)).k)] else [];
      var o1 := if SpanOf(e).Inside? then [Open(SpanOf(e).k)] else [];
      var o2 := if SpanOf(Invert(e)).Inside? then [Open(SpanOf(Invert(e)).k)] else [];
      assert Mirrored(c1, c2) && Mirrored(o1, o2);
      MirroredAppend(c1, c2, o1, o2);
    }
  }

  lemma MirroredAppend(a: seq<Token>, b: seq<Token>, c: seq<Token>, d: seq<Token>)
    requires Mirrored(a, b) && Mirrored(c, d)
    ensures Mirrored(a + c, b + d)
  {
    forall k | 0 <= k < |a + c|
      ensures MirrorTok((a + c)[k], (b + d)[k])
    {
      if k < |a| {
        assert (a + c)[k] == a[k] && (b + d)[k] == b[k];
      } else {
        assert (a + c)[k] == c[k - |a|] && (b + d)[k] == d[k - |a|];
      }
    }
  }

  /** Both views written up to an event of kind prev (the second with
      inverted kinds), having kept the first k1 runes of s1 and the first
      k2 of s2, with tagged runes inside spans in each, mirroring each other
      and differing exactly inside `subst` spans. */
  predicate Views(s1: seq<int>, s2: seq<int>, k1: nat, k2: nat, prev: EventType, tagged: nat,
                  d1: seq<Token>, d2: seq<Token>)
  {
    && k1 <= |s1| && k2 <= |s2|
    && ViewState(d1, prev, s1[..k1], tagged)
    && ViewState(d2, Invert(prev), s2[..k2], tagged)
    && Mirrored(d1, d2) && Paired(d1, d2)
  }

  /** One event written to both views: the first keeps its rune unless the
      event is a deletion, the second unless it is an insertion, an edit
      adds one tagged rune to each, and the two runes written are the same
      unless the event is a substitution. */
  lemma EmitBoth(s1: seq<int>, s2: seq<int>, k1: nat, k2: nat, prev: EventType, tagged: nat,
                 d1: seq<Token>, d2: seq<Token>, e: Edit, c1: int, c2: int,
                 k1': nat, k2': nat, tagged': nat, d1': seq<Token>, d2': seq<Token>)
    requires Views(s1, s2, k1, k2, prev, tagged, d1, d2)
    requires e != Del ==> k1 < |s1| && c1 == s1[k1]
    requires e != Ins ==> k2 < |s2| && c2 == s2[k2]
    requires c1 == c2 <==> e != Subst
    requires k1' == if e == Del then k1 else k1 + 1
    requires k2' == if e == Ins then k2 else k2 + 1
    requires tagged' == tagged + (if e == Same then 0 else 1)
    requires d1' == d1 + Markers(prev, e) + [Char(c1)]
    requires d2' == d2 + Markers(Invert(prev), Invert(e)) + [Char(c2)]
    ensures Views(s1, s2, k1', k2', e, tagged', d1', d2')
    ensures Spans(d1') == Spans(d1) + [SpanOf(e)]
  {
    EmitView(s1, k1, prev, tagged, d1, e, c1, k1', tagged', d1');
    assert Invert(e) == Del <==> e == Ins;
    EmitView(s2, k2, Invert(prev), tagged, d2, Invert(e), c2, k2', tagged', d2');
    EmitMirror(d1, d2, prev, e, c1, c2, d1', d2');
    EmitPaired(d1, d2, prev, e, c1, c2, d1', d2');
  }

  /** One event written to one view, the rune kept unless the event is a
      deletion and tagged unless it is `Same`. */
  lemma EmitView(s: seq<int>, k: nat, prev: EventType, tagged: nat, d: seq<Token>, e: Edit, c: int,
                 k': nat, tagged': nat, d': seq<Token>)
    requires k <= |s| && ViewState(d, prev, s[..k], tagged)
    requires e != Del ==> k < |s| && c == s[k]
    requires k' == if e == Del then k else k + 1
    requires tagged' == tagged + (if e == Same then 0 else 1)
    requires d' == d + Markers(prev, e) + [Char(c)]
    ensures k' <= |s| && ViewState(d', e, s[..k'], tagged')
    ensures Spans(d') == Spans(d) + [SpanOf(e)]
  {
    TakeStep(s, k, e != Del, c);
    EmitStep(d, prev, e, c, s[..k], tagged);
  }

  /** The two views stay mirrored when one event is written to each. */
  lemma EmitMirror(d1: seq<Token>, d2: seq<Token>, prev: EventType, e: Edit, c1: int, c2: int,
                   d1': seq<Token>, d2': seq<Token>)
    requires Mirrored(d1, d2)
    requires d1' == d1 + Markers(prev, e) + [Char(c1)]
    requires d2' == d2 + Markers(Invert(prev), Invert(e)) + [Char(c2)]
    ensures Mirrored(d1', d2')
  {
    MarkersMirror(prev, e);
    MirroredAppend(d1, d2, Markers(prev, e), Markers(Invert(prev), Invert(e)));
    MirroredAppend(d1 + Markers(prev, e), d2 + Markers(Invert(prev), Invert(e)), [Char(c1)], [Char(c2)]);
  }

  /** The two views stay paired when one event is written to each: its
      runes are equal unless it is a substitution. */
  lemma EmitPaired(d1: seq<Token>, d2: seq<Token>, prev: EventType, e: Edit, c1: int, c2: int,
                   d1': seq<Token>, d2': seq<Token>)
    requires Paired(d1, d2) && State(d1') == SpanOf(e)
    requires c1 == c2 <==> e != Subst
    requires d1' == d1 + Markers(prev, e) + [Char(c1)]
    requires d2' == d2 + Markers(Invert(prev), Invert(e)) + [Char(c2)]
    ensures Paired(d1', d2')
  {
    var m1, m2 := Markers(prev, e), Markers(Invert(prev), Invert(e));
    MarkersMirror(prev, e);
    PairedTags(d1, d2, m1, m2);
    Snoc(d1 + m1, Char(c1));
    PairedSnoc(d1 + m1, d2 + m2, Char(c1), Char(c2));
  }

  /** Writing markers and a rune keeps what was written before. */
  lemma Grows(d: seq<Token>, m: seq<Token>, t: Token)
    ensures d < d + m + [t]
  {
  }

  /** A prefix grows by the next element when that element is kept. */
  lemma TakeStep(s: seq<int>, k: nat, keep: bool, c: int)
    requires k <= |s| && (keep ==> k < |s| && c == s[k])
    ensures s[..k] + (if keep then [c] else []) == s[..if keep then k + 1 else k]
  {
    if keep {
      assert s[..k + 1] == s[..k] + [s[k]];
    } else {
      assert s[..k] + [] == s[..k];
    }
  }

  /** One step of the replay: a deletion writes the next rune of s2 to
      both views, an insertion the next rune of s1, `Same` and `Subst` the
      next rune of each string to its own view, each after its markers. */
  method Emit(s1: seq<int>, s2: seq<int>, k1: nat, k2: nat, prev: EventType, ghost tagged: nat,
              d1: seq<Token>, d2: seq<Token>, e: Edit, ghost k1': nat, ghost k2': nat, ghost tagged': nat)
    returns (n1: seq<Token>, n2: seq<Token>)
    requires Views(s1, s2, k1, k2, prev, tagged, d1, d2)
    requires k1' == (if e == Del then k1 else k1 + 1) && k1' <= |s1|
    requires k2' == (if e == Ins then k2 else k2 + 1) && k2' <= |s2|
    requires tagged' == tagged + (if e == Same then 0 else 1)
    requires e == Same ==> s1[k1] == s2[k2]
    requires e == Subst ==> s1[k1] != s2[k2]
    ensures n1 == d1 + Markers(prev, e) + [Char(if e == Del then s2[k2] else s1[k1])]
    ensures n2 == d2 + Markers(Invert(prev), Invert(e)) + [Char(if e == Ins then s1[k1] else s2[k2])]
    ensures d1 < n1 && d2 < n2
    ensures Views(s1, s2, k1', k2', e, tagged', n1, n2)
    ensures Spans(n1) == Spans(d1) + [SpanOf(e)]
  {
    var c1, c2;
    if e == Del {
      c1, c2 := s2[k2], s2[k2];
    } else if e == Ins {
      c1, c2 := s1[k1], s1[k1];
    } else {
      c1, c2 := s1[k1], s2[k2];
    }
    n1 := d1 + Markers(prev, e) + [Char(c1)];
    n2 := d2 + Markers(Invert(prev), Invert(e)) + [Char(c2)];
    EmitBoth(s1, s2, k1, k2, prev, tagged, d1, d2, e, c1, c2, k1', k2', tagged', n1, n2);
    Grows(d1, Markers(prev, e), Char(c1));
    Grows(d2, Markers(Invert(prev), Invert(e)), Char(c2));
  }

  /** After the last event, the span still open in each view is closed. */
  method Finish(s1: seq<int>, s2: seq<int>, k1: nat, k2: nat, last: EventType, ghost tagged: nat,
                d1: seq<Token>, d2: seq<Token>)
    returns (n1: seq<Token>, n2: seq<Token>)
    requires last != None && Views(s1, s2, k1, k2, last, tagged, d1, d2)
    ensures Strip(n1) == s1[..k1] && Strip(n2) == s2[..k2]
    ensures TaggedCount(n1) == tagged && TaggedCount(n2) == tagged
    ensures WellFormed(n1) && WellFormed(n2)
    ensures Mirrored(n1, n2) && Paired(n1, n2)
    ensures n1 == d1 + (if last == Same then [] else [Close(last)])
    ensures n2 == d2 + (if last == Same then [] else [Close(Invert(last))])
    ensures Spans(n1) == Spans(d1)
  {
    var e: Edit := last;
    CloseLast(d1, e);
    CloseLast(d2, Invert(e));
    if e != Same {
      MirroredAppend(d1, d2, [Close(e)], [Close(Invert(e))]);
      PairedTags(d1, d2, [Close(e)], [Close(Invert(e))]);
      Snoc(d1, Close(e));
      n1 := d1 + [Close(e)];
      n2 := d2 + [Close(Invert(e))];
    } else {
      n1, n2 := d1, d2;
      assert d1 + [] == d1 && d2 + [] == d2;
    }
  }

  /** The span each event's rune is written in, in the order the replay
      writes them: the list read from its end. */
  function EventSpans(events: seq<Edit>): (r: seq<Span>)
    ensures |r| == |events|
    ensures forall k :: 0 <= k < |events| ==> r[k] == SpanOf(events[|events| - 1 - k])
  {
    if |events| == 0 then [] else EventSpans(events[1..]) + [SpanOf(events[0])]
  }

  /** The replay after the events from index j+1 on (the last |events|-1-j
      of the list, read backwards) have been written: i events done, of
      which deletes deletions and inserts insertions, prev the last one
      (`None` before the first), and both views describing the runes
      consumed so far. */
  ghost predicate Replayed(s1: seq<int>, s2: seq<int>, events: seq<Edit>, j: int, i: int,
                           deletes: int, inserts: int, prev: EventType, d1: seq<Token>, d2: seq<Token>)
  {
    && -1 <= j < |events| && i == |events| - 1 - j
    && i - deletes == Consumed1(events[j+1..]) && i - inserts == Consumed2(events[j+1..])
    && (prev == None <==> j == |events| - 1)
    && (prev != None ==> prev == events[j+1])
    && Views(s1, s2, i - deletes, i - inserts, prev, Cost(events[j+1..]), d1, d2)
    && Spans(d1) == EventSpans(events[j+1..])
  }

  /** Every `Same` step of events pairs two equal runes and every `Subst`
      step two different ones, the runes being those the replay reaches
      when it writes the step (it reads the list from the end). */
  predicate StepsMatch(s1: seq<int>, s2: seq<int>, events: seq<Edit>)
  {
    forall j :: 0 <= j < |events| && (events[j] == Same || events[j] == Subst) ==>
      && Consumed1(events[j+1..]) < |s1| && Consumed2(events[j+1..]) < |s2|
      && (s1[Consumed1(events[j+1..])] == s2[Consumed2(events[j+1..])] <==> events[j] == Same)
  }

  /** The pairing of one step of a matching script. */
  lemma StepMatches(s1: seq<int>, s2: seq<int>, events: seq<Edit>, j: nat)
    requires StepsMatch(s1, s2, events) && j < |events|
    ensures events[j] == Same || events[j] == Subst ==>
      && Consumed1(events[j+1..]) < |s1| && Consumed2(events[j+1..]) < |s2|
      && (s1[Consumed1(events[j+1..])] == s2[Consumed2(events[j+1..])] <==> events[j] == Same)
  {
  }

  /** One turn of the replay loop: write event j to both views and count it. */
  method ReplayOne(s1: seq<int>, s2: seq<int>, events: seq<Edit>, j: int, i: int,
                   deletes: int, inserts: int, prev: EventType, d1: seq<Token>, d2: seq<Token>)
    returns (deletes': int, inserts': int, n1: seq<Token>, n2: seq<Token>)
    requires 0 <= j && Consumed1(events) <= |s1| && Consumed2(events) <= |s2|
    requires Replayed(s1, s2, events, j, i, deletes, inserts, prev, d1, d2)
    requires events[j] != Del ==> i - deletes < |s1|
    requires events[j] != Ins ==> i - inserts < |s2|
    requires events[j] == Same || events[j] == Subst ==>
      (s1[i - deletes] == s2[i - inserts] <==> events[j] == Same)
    ensures n1 == d1 + Markers(prev, events[j]) + [Char(if events[j] == Del then s2[i - inserts] else s1[i - deletes])]
    ensures n2 == d2 + Markers(Invert(prev), Invert(events[j])) + [Char(if events[j] == Ins then s1[i - deletes] else s2[i - inserts])]
    ensures d1 < n1 && d2 < n2
    ensures Replayed(s1, s2, events, j - 1, i + 1, deletes', inserts', events[j], n1, n2)
  {
    ReplayReady(s1, s2, events, j, i, deletes, inserts, prev, d1, d2);
    var e: Edit := events[j];
    ghost var k1, k2, tagged := Consumed1(events[j..]), Consumed2(events[j..]), Cost(events[j..]);
    n1, n2 := Emit(s1, s2, i - deletes, i - inserts, prev, Cost(events[j+1..]), d1, d2, e, k1, k2, tagged);
    deletes' := if e == Del then deletes + 1 else deletes;
    inserts' := if e == Ins then inserts + 1 else inserts;
    ReplayedNext(s1, s2, events, j, i, deletes', inserts', d1, n1, n2);
  }

  /** What the replay state says about event j before it is written. */
  lemma ReplayReady(s1: seq<int>, s2: seq<int>, events: seq<Edit>, j: int, i: int,
                    deletes: int, inserts: int, prev: EventType, d1: seq<Token>, d2: seq<Token>)
    requires 0 <= j && Consumed1(events) <= |s1| && Consumed2(events) <= |s2|
    requires Replayed(s1, s2, events, j, i, deletes, inserts, prev, d1, d2)
    ensures 0 <= i - deletes && 0 <= i - inserts
    ensures Views(s1, s2, i - deletes, i - inserts, prev, Cost(events[j+1..]), d1, d2)
    ensures Consumed1(events[j..]) == (if events[j] == Del then i - deletes else i - deletes + 1) <= |s1|
    ensures Consumed2(events[j..]) == (if events[j] == Ins then i - inserts else i - inserts + 1) <= |s2|
    ensures Cost(events[j..]) == Cost(events[j+1..]) + (if events[j] == Same then 0 else 1)
  {
    SuffixStep(events, j);
  }

  /** The replay's state after writing event j. */
  lemma ReplayedNext(s1: seq<int>, s2: seq<int>, events: seq<Edit>, j: int, i: int,
                     deletes': int, inserts': int, d1: seq<Token>, n1: seq<Token>, n2: seq<Token>)
    requires 0 <= j < |events| && i == |events| - 1 - j
    requires Spans(d1) == EventSpans(events[j+1..]) && Spans(n1) == Spans(d1) + [SpanOf(events[j])]
    requires i + 1 - deletes' == Consumed1(events[j..]) && i + 1 - inserts' == Consumed2(events[j..])
    requires Views(s1, s2, Consumed1(events[j..]), Consumed2(events[j..]), events[j], Cost(events[j..]), n1, n2)
    ensures Replayed(s1, s2, events, j - 1, i + 1, deletes', inserts', events[j], n1, n2)
  {
    assert events[(j - 1) + 1..] == events[j..];
    assert events[j..][1..] == events[j+1..];
  }

  /** Replays events (the traceback's output, last step first) from the
      end of the list. A deletion writes the next rune of s2 to both views,
      an insertion the next rune of s1, and `Same`/`Subst` the next rune of
      each to its own view. Runs of one kind share one span; the first
      view uses the event kinds, the second their inverses. Given a script
      whose `same` steps join equal runes and `subst` steps unequal ones,
      the views agree everywhere but inside `subst` spans. */
  method Diffs(s1: seq<int>, s2: seq<int>, events: seq<Edit>) returns (d1: seq<Token>, d2: seq<Token>)
    requires |events| > 0
    requires Consumed1(events) <= |s1| && Consumed2(events) <= |s2|
    requires StepsMatch(s1, s2, events)
    ensures Strip(d1) == s1[..Consumed1(events)] && Strip(d2) == s2[..Consumed2(events)]
    ensures TaggedCount(d1) == Cost(events) && TaggedCount(d2) == Cost(events)
    ensures WellFormed(d1) && WellFormed(d2)
    ensures Mirrored(d1, d2) && Paired(d1, d2)
    ensures Spans(d1) == EventSpans(events)
  {
    var prev: EventType := None;
    var event: EventType := None;
    var deletes, inserts := 0, 0;
    d1, d2 := [], [];
    var i := 0;
    var j := |events| - 1;
    assert Replayed(s1, s2, events, j, i, deletes, inserts, prev, d1, d2) by {
      assert events[j+1..] == [];
      assert s1[..0] == [] && s2[..0] == [];
    }
    while j >= 0
      invariant Replayed(s1, s2, events, j, i, deletes, inserts, prev, d1, d2)
      invariant event == prev
    {
      StepMatches(s1, s2, events, j);
      SuffixStep(events, j);
      deletes, inserts, d1, d2 := ReplayOne(s1, s2, events, j, i, deletes, inserts, prev, d1, d2);
      event := events[j];
      prev := event;
      i := i + 1;
      j := j - 1;
    }
    assert events[0..] == events;
    d1, d2 := Finish(s1, s2, Consumed1(events), Consumed2(events), event, Cost(events), d1, d2);
  }
}

=== FILE: tags.dfy ===
/** Tagged strings. The engine writes its tags as text (`<ins>`, `</ins>`,
    ...); here a tagged string is a sequence of tokens, and Flatten gives
    the text it stands for. */
module Tags {
  import opened Events

  datatype Token = Char(r: int) | Open(k: Edit) | Close(k: Edit)

  /** Whether a tag span is open after a prefix of tokens, and of which kind. */
  datatype Span = Outside | Inside(k: Edit)

  /** The span an event leaves open: none for `Same` (and for no event). */
  function SpanOf(e: EventType): Span
  {
    if e == None || e == Same then Outside else Inside(e)
  }

  function Advance(s: Span, t: Token): Span
  {
    match t
    case Char(_) => s
    case Open(k) => Inside(k)
    case Close(_) => Outside
  }

  /** Span state after reading ts from the start. */
  function State(ts: seq<Token>): Span
  {
    if |ts| == 0 then Outside else Advance(State(ts[..|ts|-1]), ts[|ts|-1])
  }

  /** The runes of ts with the markers and the contents of `del` spans
      removed: the string a tagged view describes. */
  function Strip(ts: seq<Token>): seq<int>
  {
    if |ts| == 0 then []
    else
      var init := ts[..|ts|-1];
      var t := ts[|ts|-1];
      Strip(init) + (if t.Char? && State(init) != Inside(Del) then [t.r] else [])
  }

  /** Number of runes that sit inside some tag span. */
  function TaggedCount(ts: seq<Token>): nat
  {
    if |ts| == 0 then 0
    else
      var init := ts[..|ts|-1];
      var t := ts[|ts|-1];
      TaggedCount(init) + (if t.Char? && State(init).Inside? then 1 else 0)
  }

  /** The span each rune of ts sits in, in order. */
  function Spans(ts: seq<Token>): seq<Span>
  {
    if |ts| == 0 then []
    else
      var init := ts[..|ts|-1];
      var t := ts[|ts|-1];
      Spans(init) + (if t.Char? then [State(init)] else [])
  }

  /** The runes of ts in order, markers dropped. */
  function Letters(ts: seq<Token>): seq<int>
  {
    if |ts| == 0 then []
    else
      var init := ts[..|ts|-1];
      var t := ts[|ts|-1];
      Letters(init) + (if t.Char? then [t.r] else [])
  }

  /** Whether t may follow prefix: a span opens only outside any span,
      is never of kind `Same`, never reopens the kind that was just
      closed (runs are merged), and closes only its own kind after at
      least one rune. */
  predicate Legal(prefix: seq<Token>, t: Token)
  {
    match t
    case Char(_) => true
    case Open(k) =>
      State(prefix) == Outside && k != Same
      && (|prefix| == 0 || prefix[|prefix|-1] != Close(k))
    case Close(k) =>
      State(prefix) == Inside(k) && |prefix| > 0 && prefix[|prefix|-1].Char?
  }

  /** Every token of ts is legal after the tokens before it. */
  predicate Proper(ts: seq<Token>)
  {
    |ts| == 0 || (Proper(ts[..|ts|-1]) && Legal(ts[..|ts|-1], ts[|ts|-1]))
  }

  /** Balanced, unnested, non-empty, merged tag spans. */
  predicate WellFormed(ts: seq<Token>)
  {
    Proper(ts) && State(ts) == Outside
  }

  /** t2 is t1 as seen from the other string. */
  predicate MirrorTok(t1: Token, t2: Token)
  {
    match t1
    case Char(_) => t2.Char?
    case Open(k) => t2 == Open(Invert(k))
    case Close(k) => t2 == Close(Invert(k))
  }

  /** d2 has the span layout of d1 with `ins` and `del` swapped. */
  predicate Mirrored(d1: seq<Token>, d2: seq<Token>)
  {
    |d1| == |d2| && forall k :: 0 <= k < |d1| ==> MirrorTok(d1[k], d2[k])
  }

  /** Whether two runes at the same place of the two views fit the span
      they sit in: different inside a `subst` span, identical anywhere
      else. */
  predicate RunesAgree(s: Span, t1: Token, t2: Token)
  {
    if s == Inside(Subst) then t2 != t1 else t2 == t1
  }

  /** The views hold the same rune at every place except inside `subst`
      spans, where they hold different ones: untagged runes are common to
      both strings, the rune of an insertion or deletion is written to both
      views, and a substitution pairs two different runes. */
  predicate Paired(d1: seq<Token>, d2: seq<Token>)
  {
    |d1| == |d2| &&
    forall k :: 0 <= k < |d1| && d1[k].Char? ==> RunesAgree(State(d1[..k]), d1[k], d2[k])
  }

  /** Pairing grows token by token. */
  lemma PairedSnoc(d1: seq<Token>, d2: seq<Token>, t1: Token, t2: Token)
    requires Paired(d1, d2)
    requires t1.Char? ==> RunesAgree(State(d1), t1, t2)
    ensures Paired(d1 + [t1], d2 + [t2])
  {
    var e1, e2 := d1 + [t1], d2 + [t2];
    forall k | 0 <= k < |e1| && e1[k].Char?
      ensures RunesAgree(State(e1[..k]), e1[k], e2[k])
    {
      if k < |d1| {
        assert e1[..k] == d1[..k] && e1[k] == d1[k] && e2[k] == d2[k];
      } else {
        assert e1[..k] == d1;
      }
    }
  }

  /** Markers of equal length keep the views paired. */
  lemma PairedTags(d1: seq<Token>, d2: seq<Token>, m1: seq<Token>, m2: seq<Token>)
    requires Paired(d1, d2) && |m1| == |m2|
    requires forall i :: 0 <= i < |m1| ==> !m1[i].Char?
    ensures Paired(d1 + m1, d2 + m2)
  {
    var e1, e2 := d1 + m1, d2 + m2;
    forall k | 0 <= k < |e1| && e1[k].Char?
      ensures RunesAgree(State(e1[..k]), e1[k], e2[k])
    {
      if k < |d1| {
        assert e1[..k] == d1[..k] && e1[k] == d1[k] && e2[k] == d2[k];
      }
    }
  }

  /** Markers alone leave the spans and the runes alone. */
  lemma {:induction false} AppendMarkers(ts: seq<Token>, m: seq<Token>)
    requires forall i :: 0 <= i < |m| ==> !m[i].Char?
    ensures Spans(ts + m) == Spans(ts) && Letters(ts + m) == Letters(ts)
    decreases |m|
  {
    if |m| > 0 {
      var init := m[..|m|-1];
      AppendMarkers(ts, init);
      SplitLast(m);
      Assoc(ts, init, [m[|m|-1]]);
      Snoc(ts + init, m[|m|-1]);
    } else {
      assert ts + m == ts;
    }
  }

  /** The last rune of a proper string ending in a rune or a closing
      marker sits in the span that string ends in, or in the span closed. */
  lemma LastSpan(ts: seq<Token>)
    requires Proper(ts) && |ts| > 0 && !ts[|ts|-1].Open?
    ensures |Spans(ts)| > 0
    ensures Spans(ts)[|Spans(ts)|-1] == if ts[|ts|-1].Char? then State(ts) else Inside(ts[|ts|-1].k)
  {
    var init := ts[..|ts|-1];
    if ts[|ts|-1].Close? {
      var n := |init| - 1;
      assert init[..n] + [init[n]] == init;
      Snoc(init[..n], init[n]);
    }
  }

  /** Two proper strings in the same state with the same spans end alike:
      both in a rune or both in the same marker. */
  lemma LastAlike(a: seq<Token>, b: seq<Token>)
    requires Proper(a) && Proper(b) && |a| > 0 && |b| > 0
    requires State(a) == State(b) && Spans(a) == Spans(b)
    ensures a[|a|-1].Char? <==> b[|b|-1].Char?
    ensures !a[|a|-1].Char? ==> a[|a|-1] == b[|b|-1]
  {
    RuneNotMarker(a, b);
    RuneNotMarker(b, a);
    var x, y := a[|a|-1], b[|b|-1];
    if x.Close? && y.Close? {
      LastSpan(a);
      LastSpan(b);
    }
  }

  /** If one of two such strings ends in a rune, so does the other. */
  lemma RuneNotMarker(a: seq<Token>, b: seq<Token>)
    requires Proper(a) && Proper(b) && |a| > 0 && |b| > 0
    requires State(a) == State(b) && Spans(a) == Spans(b)
    ensures a[|a|-1].Char? ==> b[|b|-1].Char?
  {
    if a[|a|-1].Char? {
      LastSpan(a);
      var y := b[|b|-1];
      var b' := b[..|b|-1];
      if y.Close? {
        LastSpan(b);
      } else if y.Open? {
        assert Spans(b) == Spans(b');
        if |b'| > 0 {
          LastSpan(b');
        }
      }
    }
  }

  /** A proper string outside any span with no rune is empty. */
  lemma NoRunes(ts: seq<Token>)
    requires Proper(ts) && State(ts) == Outside && Spans(ts) == []
    ensures |ts| == 0
  {
    if |ts| > 0 {
      LastSpan(ts);
    }
  }

  /** A proper string is determined by its final state, the span of each
      rune and the runes: the markers between two runes are fixed by the
      spans the two runes sit in, since spans are never empty, never
      nested and never reopened right after closing. */
  lemma {:induction false} Determined(a: seq<Token>, b: seq<Token>)
    requires Proper(a) && Proper(b) && State(a) == State(b)
    requires Spans(a) == Spans(b) && Letters(a) == Letters(b)
    ensures a == b
    decreases |a|
  {
    if |a| == 0 {
      NoRunes(b);
    } else if |b| == 0 {
      NoRunes(a);
    } else {
      LastAlike(a, b);
      var a', b' := a[..|a|-1], b[..|b|-1];
      var x, y := a[|a|-1], b[|b|-1];
      if x.Char? {
        assert Spans(a') + [State(a')] == Spans(b') + [State(b')];
        assert Letters(a') + [x.r] == Letters(b') + [y.r];
        SnocCancel(Spans(a'), Spans(b'), State(a'), State(b'));
        SnocCancel(Letters(a'), Letters(b'), x.r, y.r);
      } else {
        assert Spans(a') == Spans(a) && Spans(b') == Spans(b);
        assert Letters(a') == Letters(a) && Letters(b') == Letters(b);
        assert Legal(a', x) && Legal(b', y);
      }
      Determined(a', b');
      assert a == a' + [x] && b == b' + [y];
    }
  }

  /** Sequences equal after one element each is appended are equal, and
      so are the elements. */
  lemma SnocCancel<T>(p: seq<T>, q: seq<T>, x: T, y: T)
    requires p + [x] == q + [y]
    ensures p == q && x == y
  {
    assert p == (p + [x])[..|p|] && q == (q + [y])[..|q|];
  }

  /** Untagged runes. */
  function Plain(s: seq<int>): (r: seq<Token>)
    ensures |r| == |s|
    ensures forall i :: 0 <= i < |s| ==> r[i] == Char(s[i])
  {
    if |s| == 0 then [] else Plain(s[..|s|-1]) + [Char(s[|s|-1])]
  }

  /** Concatenation regroups freely. */
  lemma Assoc<T>(a: seq<T>, b: seq<T>, c: seq<T>)
    ensures (a + b) + c == a + (b + c)
  {
  }

  /** A non-empty sequence is its front followed by its last element. */
  lemma SplitLast<T>(s: seq<T>)
    requires |s| > 0
    ensures s[..|s|-1] + [s[|s|-1]] == s
  {
  }

  /** s wrapped in a single span of kind k. */
  function Wrap(k: Edit, s: seq<int>): seq<Token>
  {
    [Open(k)] + Plain(s) + [Close(k)]
  }

  /** The two views the engine produces together: d1 describes a, d2
      describes b, each has exactly dist runes inside spans, both are well
      formed, they mirror each other, and they differ exactly inside
      `subst` spans. */
  predicate Describes(a: seq<int>, b: seq<int>, dist: nat, d1: seq<Token>, d2: seq<Token>)
  {
    && Strip(d1) == a && Strip(d2) == b
    && TaggedCount(d1) == dist && TaggedCount(d2) == dist
    && WellFormed(d1) && WellFormed(d2)
    && Mirrored(d1, d2) && Paired(d1, d2)
  }

  /** How each token-level function extends by one token. */
  lemma Snoc(ts: seq<Token>, t: Token)
    ensures State(ts + [t]) == Advance(State(ts), t)
    ensures Strip(ts + [t]) == Strip(ts) + (if t.Char? && State(ts) != Inside(Del) then [t.r] else [])
    ensures TaggedCount(ts + [t]) == TaggedCount(ts) + (if t.Char? && State(ts).Inside? then 1 else 0)
    ensures Spans(ts + [t]) == Spans(ts) + (if t.Char? then [State(ts)] else [])
    ensures Letters(ts + [t]) == Letters(ts) + (if t.Char? then [t.r] else [])
    ensures Proper(ts + [t]) <==> Proper(ts) && Legal(ts, t)
  {
    assert (ts + [t])[..|ts|] == ts;
  }

  /** Runes appended in some state keep that state and stay legal. */
  lemma {:induction false} AppendPlainLegal(ts: seq<Token>, s: seq<int>)
    requires Proper(ts)
    ensures State(ts + Plain(s)) == State(ts)
    ensures Proper(ts + Plain(s))
    decreases |s|
  {
    if |s| > 0 {
      var init := s[..|s|-1];
      var last := s[|s|-1];
      AppendPlainLegal(ts, init);
      var u := ts + Plain(init);
      Assoc(ts, Plain(init), [Char(last)]);
      Snoc(u, Char(last));
    } else {
      assert ts + Plain(s) == ts;
    }
  }

  /** Runes appended in some state are kept by Strip unless that state is
      a `del` span, and are counted as tagged inside any span. */
  lemma AppendPlainContent(ts: seq<Token>, s: seq<int>)
    ensures Strip(ts + Plain(s)) == Strip(ts) + (if State(ts) == Inside(Del) then [] else s)
    ensures TaggedCount(ts + Plain(s)) == TaggedCount(ts) + (if State(ts).Inside? then |s| else 0)
  {
    AppendPlainStrip(ts, s);
    AppendPlainTagged(ts, s);
  }

  lemma {:induction false} AppendPlainStrip(ts: seq<Token>, s: seq<int>)
    ensures Strip(ts + Plain(s)) == Strip(ts) + (if State(ts) == Inside(Del) then [] else s)
    decreases |s|
  {
    if |s| > 0 {
      var init := s[..|s|-1];
      var last := s[|s|-1];
      var u := ts + Plain(init);
      var keep := State(ts) != Inside(Del);
      calc {
        Strip(ts + Plain(s));
        { Assoc(ts, Plain(init), [Char(last)]); }
        Strip(u + [Char(last)]);
        { Snoc(u, Char(last)); AppendPlainState(ts, init); }
        Strip(u) + (if keep then [last] else []);
        { AppendPlainStrip(ts, init); }
        (Strip(ts) + (if keep then init else [])) + (if keep then [last] else []);
        { Assoc(Strip(ts), init, [last]); SplitLast(s); }
        Strip(ts) + (if keep then s else []);
      }
    } else {
      assert ts + Plain(s) == ts;
    }
  }

  lemma {:induction false} AppendPlainTagged(ts: seq<Token>, s: seq<int>)
    ensures TaggedCount(ts + Plain(s)) == TaggedCount(ts) + (if State(ts).Inside? then |s| else 0)
    decreases |s|
  {
    if |s| > 0 {
      var init := s[..|s|-1];
      var last := s[|s|-1];
      var u := ts + Plain(init);
      var inside := State(ts).Inside?;
      calc {
        TaggedCount(ts + Plain(s));
        { Assoc(ts, Plain(init), [Char(last)]); }
        TaggedCount(u + [Char(last)]);
        { Snoc(u, Char(last)); AppendPlainState(ts, init); }
        TaggedCount(u) + (if inside then 1 else 0);
        { AppendPlainTagged(ts, init); }
        TaggedCount(ts) + (if inside then |init| + 1 else 0);
      }
    } else {
      assert ts + Plain(s) == ts;
    }
  }

  /** Appending runes leaves the span state alone. */
  lemma {:induction false} AppendPlainState(ts: seq<Token>, s: seq<int>)
    ensures State(ts + Plain(s)) == State(ts)
    decreases |s|
  {
    if |s| > 0 {
      var init := s[..|s|-1];
      AppendPlainState(ts, init);
      assert ts + Plain(s) == (ts + Plain(init)) + [Char(s[|s|-1])];
      Snoc(ts + Plain(init), Char(s[|s|-1]));
    } else {
      assert ts + Plain(s) == ts;
    }
  }

  /** Untagged runes describe themselves and carry no tag. */
  lemma PlainFacts(s: seq<int>)
    ensures WellFormed(Plain(s)) && Strip(Plain(s)) == s && TaggedCount(Plain(s)) == 0
    ensures Mirrored(Plain(s), Plain(s)) && Paired(Plain(s), Plain(s))
  {
    AppendPlainLegal([], s);
    AppendPlainContent([], s);
    assert [] + Plain(s) == Plain(s);
    PlainPaired(s);
  }

  /** Every rune of an untagged string sits outside any span. */
  lemma PlainPaired(s: seq<int>)
    ensures Paired(Plain(s), Plain(s))
  {
    var p := Plain(s);
    forall k | 0 <= k < |p| && p[k].Char?
      ensures RunesAgree(State(p[..k]), p[k], p[k])
    {
      assert p[..k] == [] + Plain(s[..k]);
      AppendPlainState([], s[..k]);
    }
  }

  /** A single span of a non-empty run. */
  lemma WrapFacts(k: Edit, s: seq<int>)
    requires k != Same && |s| > 0
    ensures WellFormed(Wrap(k, s))
    ensures Strip(Wrap(k, s)) == if k == Del then [] else s
    ensures TaggedCount(Wrap(k, s)) == |s|
    ensures Mirrored(Wrap(k, s), Wrap(Invert(k), s))
    ensures k != Subst ==> Paired(Wrap(k, s), Wrap(Invert(k), s))
  {
    var o := [Open(k)];
    assert Wrap(k, s) == (o + Plain(s)) + [Close(k)];
    assert WellFormed(Wrap(k, s)) by { WrapLegal(k, s, o); }
    assert Strip(Wrap(k, s)) == (if k == Del then [] else s) && TaggedCount(Wrap(k, s)) == |s| by {
      WrapContent(k, s, o);
    }
    WrapMirror(k, s);
  }

  /** The opening marker, the runes and the closing marker are each legal. */
  lemma WrapLegal(k: Edit, s: seq<int>, o: seq<Token>)
    requires k != Same && |s| > 0 && o == [Open(k)]
    ensures WellFormed((o + Plain(s)) + [Close(k)])
  {
    Snoc([], Open(k));
    assert [] + [Open(k)] == o;
    AppendPlainLegal(o, s);
    assert (o + Plain(s))[|o + Plain(s)| - 1] == Char(s[|s|-1]);
    Snoc(o + Plain(s), Close(k));
  }

  /** Inside the span every rune is tagged, and kept unless it is a
      deletion. */
  lemma WrapContent(k: Edit, s: seq<int>, o: seq<Token>)
    requires k != Same && o == [Open(k)]
    ensures Strip((o + Plain(s)) + [Close(k)]) == if k == Del then [] else s
    ensures TaggedCount((o + Plain(s)) + [Close(k)]) == |s|
  {
    Snoc([], Open(k));
    assert [] + [Open(k)] == o;
    AppendPlainContent(o, s);
    AppendPlainState(o, s);
    Snoc(o + Plain(s), Close(k));
  }

  /** The two spans differ only in their markers: same layout, same runes,
      all inside the span. */
  lemma WrapMirror(k: Edit, s: seq<int>)
    ensures Mirrored(Wrap(k, s), Wrap(Invert(k), s))
    ensures k != Subst ==> Paired(Wrap(k, s), Wrap(Invert(k), s))
  {
    var w1, w2 := Wrap(k, s), Wrap(Invert(k), s);
    Snoc([], Open(k));
    assert [] + [Open(k)] == [Open(k)];
    forall i | 0 <= i < |w1|
      ensures MirrorTok(w1[i], w2[i])
      ensures w1[i].Char? ==> w2[i] == w1[i] && State(w1[..i]) == Inside(k)
    {
      if 0 < i < |w1| - 1 {
        assert w1[i] == Char(s[i-1]) && w2[i] == Char(s[i-1]);
        AppendPlainState([Open(k)], s[..i-1]);
        assert w1[..i] == [Open(k)] + Plain(s[..i-1]);
      }
    }
  }

  /** Runes of a string literal. */
  function Runes(s: string): (r: seq<int>)
    ensures |r| == |s|
  {
    seq(|s|, i requires 0 <= i < |s| => s[i] as int)
  }

  /** The text a token stands for. */
  function Text(t: Token): seq<int>
  {
    match t
    case Char(r) => [r]
    case Open(k) => Runes("<" + Name(k) + ">")
    case Close(k) => Runes("</" + Name(k) + ">")
  }

  /** The text of a tagged string. */
  function Flatten(ts: seq<Token>): seq<int>
  {
    if |ts| == 0 then [] else Flatten(ts[..|ts|-1]) + Text(ts[|ts|-1])
  }

  lemma FlattenSnoc(ts: seq<Token>, t: Token)
    ensures Flatten(ts + [t]) == Flatten(ts) + Text(t)
  {
    assert (ts + [t])[..|ts|] == ts;
  }

  /** Runes appended to a tagged string extend its text by themselves. */
  lemma {:induction false} FlattenPlain(ts: seq<Token>, s: seq<int>)
    ensures Flatten(ts + Plain(s)) == Flatten(ts) + s
    decreases |s|
  {
    if |s| > 0 {
      var init := s[..|s|-1];
      var last := s[|s|-1];
      var u := ts + Plain(init);
      calc {
        Flatten(ts + Plain(s));
        { Assoc(ts, Plain(init), [Char(last)]); }
        Flatten(u + [Char(last)]);
        { FlattenSnoc(u, Char(last)); }
        Flatten(u) + [last];
        { FlattenPlain(ts, init); }
        (Flatten(ts) + init) + [last];
        { Assoc(Flatten(ts), init, [last]); SplitLast(s); }
        Flatten(ts) + s;
      }
    } else {
      assert ts + Plain(s) == ts;
    }
  }

  /** A span flattens to its opening tag, the runes and its closing tag,
      the string the engine builds for an empty operand. */
  lemma FlattenWrap(k: Edit, s: seq<int>)
    ensures Flatten(Wrap(k, s)) == Runes("<" + Name(k) + ">") + s + Runes("</" + Name(k) + ">")
  {
    var o := [Open(k)];
    assert Flatten(o) == Text(Open(k)) by {
      FlattenSnoc([], Open(k));
      assert [] + o == o;
    }
    FlattenPlain(o, s);
    FlattenSnoc(o + Plain(s), Close(k));
    assert Wrap(k, s) == (o + Plain(s)) + [Close(k)];
  }
  
  /** Untagged runes flatten to themselves: the engine returns equal
      operands unchanged. */
  lemma FlattenUntagged(s: seq<int>)
    ensures Flatten(Plain(s)) == s
  {
    FlattenPlain([], s);
    assert [] + Plain(s) == Plain(s);
  }
}

=== FILE: trace.dfy ===
/** The traceback (`traceBack`): walks the full distance matrix from the
    bottom-right cell to the origin, choosing one step per cell, and hands
    the resulting edit script to the renderer. */
module Trace {
  import opened EditDistance
  import opened Events
  import opened Tags
  import opened Render

  /** Position of cell (r, c) in a matrix stored row by row, rows of length rl. */
  function Idx(rl: nat, r: nat, c: nat): nat
  {
    rl * r + c
  }

  /** Length of a matrix row: one cell per prefix of s1. */
  function Width(s1: seq<int>): nat
  {
    |s1| + 1
  }

  /** m holds the first n rows of the distance matrix of (s1, s2), row by row. */
  ghost predicate MatrixRows(s1: seq<int>, s2: seq<int>, m: seq<int>, n: nat)
  {
    && n <= |s2| + 1 && |m| == Width(s1) * n
    && forall r: nat, c: nat {:trigger m[Idx(Width(s1), r, c)]} :: r < n && c <= |s1| ==>
         Idx(Width(s1), r, c) < |m| && m[Idx(Width(s1), r, c)] == Cell(s1, s2, r, c)
  }

  /** m holds the whole distance matrix of (s1, s2): |s2| + 1 rows. */
  ghost predicate IsMatrix(s1: seq<int>, s2: seq<int>, m: seq<int>)
  {
    MatrixRows(s1, s2, m, |s2| + 1)
  }

  /** The step the traceback takes out of cell (i, j). The candidates are
      tried in the order substitution, insertion, deletion, and each
      replaces the current choice only when it is strictly smaller than the
      best so far; a predecessor outside the matrix is never taken, and
      when none is smaller the step is a match on the diagonal. */
  function Choose(s1: seq<int>, s2: seq<int>, i: nat, j: nat): (r: Edit)
    requires i <= |s2| && j <= |s1| && i + j > 0
    ensures r == Del ==> i > 0
    ensures r == Ins ==> j > 0
    ensures (r == Same || r == Subst) ==> i > 0 && j > 0
    ensures r == Del <==>
      && i > 0 && Cell(s1, s2, i-1, j) < Cell(s1, s2, i, j)
      && (j > 0 ==> Cell(s1, s2, i-1, j) < Cell(s1, s2, i, j-1))
      && (j > 0 ==> Cell(s1, s2, i-1, j) < Cell(s1, s2, i-1, j-1))
    ensures r == Ins <==>
      && r != Del && j > 0 && Cell(s1, s2, i, j-1) < Cell(s1, s2, i, j)
      && (i > 0 ==> Cell(s1, s2, i, j-1) < Cell(s1, s2, i-1, j-1))
    ensures r == Subst <==> r != Del && r != Ins && i > 0 && j > 0 && Cell(s1, s2, i-1, j-1) < Cell(s1, s2, i, j)
    ensures r == Same <==>
      && (i > 0 ==> Cell(s1, s2, i-1, j) >= Cell(s1, s2, i, j))
      && (j > 0 ==> Cell(s1, s2, i, j-1) >= Cell(s1, s2, i, j))
      && (i > 0 && j > 0 ==> Cell(s1, s2, i-1, j-1) >= Cell(s1, s2, i, j))
  {
    var cur := Cell(s1, s2, i, j);
    var sub := i > 0 && j > 0 && Cell(s1, s2, i-1, j-1) < cur;
    var afterSubst := if sub then Cell(s1, s2, i-1, j-1) else cur;
    var ins := j > 0 && Cell(s1, s2, i, j-1) < afterSubst;
    var afterIns := if ins then Cell(s1, s2, i, j-1) else afterSubst;
    if i > 0 && Cell(s1, s2, i-1, j) < afterIns then Del
    else if ins then Ins
    else if sub then Subst
    else Same
  }

  /** Every step the traceback chooses is a step of an optimal alignment:
      it lands on a cell that is cheaper by exactly the cost of the step,
      a match only joins equal runes and a substitution only unequal ones. */
  lemma ChooseSound(s1: seq<int>, s2: seq<int>, i: nat, j: nat)
    requires i <= |s2| && j <= |s1| && i + j > 0
    ensures Choose(s1, s2, i, j) == Del ==> Cell(s1, s2, i-1, j) + 1 == Cell(s1, s2, i, j)
    ensures Choose(s1, s2, i, j) == Ins ==> Cell(s1, s2, i, j-1) + 1 == Cell(s1, s2, i, j)
    ensures Choose(s1, s2, i, j) == Subst ==>
              s2[i-1] != s1[j-1] && Cell(s1, s2, i-1, j-1) + 1 == Cell(s1, s2, i, j)
    ensures Choose(s1, s2, i, j) == Same ==>
              s2[i-1] == s1[j-1] && Cell(s1, s2, i-1, j-1) == Cell(s1, s2, i, j)
  {
    Neighbours(s1, s2, i, j);
    if i > 0 && j > 0 {
      Neighbours(s1, s2, i-1, j);
    }
  }

  /** The script the traceback produces from cell (i, j), last step first. */
  function Script(s1: seq<int>, s2: seq<int>, i: nat, j: nat): (r: seq<Edit>)
    requires i <= |s2| && j <= |s1|
    ensures |r| <= i + j
    ensures |r| > 0 <==> i + j > 0
    decreases i + j
  {
    if i == 0 && j == 0 then []
    else
      var e := Choose(s1, s2, i, j);
      if e == Del then [e] + Script(s1, s2, i-1, j)
      else if e == Ins then [e] + Script(s1, s2, i, j-1)
      else [e] + Script(s1, s2, i-1, j-1)
  }

  /** ev, read first to last, aligns the first i runes of s2 with the first
      j runes of s1 from the end: `Del` drops a rune of s2, `Ins` one of s1,
      `Same` pairs two equal runes and `Subst` any two runes. */
  predicate Aligns(ev: seq<Edit>, s1: seq<int>, s2: seq<int>, i: nat, j: nat)
    requires i <= |s2| && j <= |s1|
    decreases |ev|
  {
    if |ev| == 0 then i == 0 && j == 0
    else if ev[0] == Del then i > 0 && Aligns(ev[1..], s1, s2, i-1, j)
    else if ev[0] == Ins then j > 0 && Aligns(ev[1..], s1, s2, i, j-1)
    else if ev[0] == Same then
      i > 0 && j > 0 && s2[i-1] == s1[j-1] && Aligns(ev[1..], s1, s2, i-1, j-1)
    else i > 0 && j > 0 && Aligns(ev[1..], s1, s2, i-1, j-1)
  }

  /** How the counts of a script grow by one event in front. */
  lemma ConsStep(e: Edit, ev: seq<Edit>)
    ensures Consumed1([e] + ev) == Consumed1(ev) + (if e == Del then 0 else 1)
    ensures Consumed2([e] + ev) == Consumed2(ev) + (if e == Ins then 0 else 1)
    ensures Cost([e] + ev) == Cost(ev) + (if e == Same then 0 else 1)
  {
    assert ([e] + ev)[0] == e && ([e] + ev)[1..] == ev;
  }

  /** An alignment of i runes of s2 with j runes of s1 consumes exactly
      those runes. */
  lemma {:induction false} AlignsConsumes(ev: seq<Edit>, s1: seq<int>, s2: seq<int>, i: nat, j: nat)
    requires i <= |s2| && j <= |s1|
    requires Aligns(ev, s1, s2, i, j)
    ensures Consumed1(ev) == j && Consumed2(ev) == i
    decreases |ev|
  {
    if |ev| > 0 {
      ConsStep(ev[0], ev[1..]);
      assert ev == [ev[0]] + ev[1..];
      if ev[0] == Del {
        AlignsConsumes(ev[1..], s1, s2, i-1, j);
      } else if ev[0] == Ins {
        AlignsConsumes(ev[1..], s1, s2, i, j-1);
      } else {
        AlignsConsumes(ev[1..], s1, s2, i-1, j-1);
      }
    }
  }

  /** No alignment is cheaper than the matrix cell: the distance is the
      minimum cost of an edit script. */
  lemma {:induction false} AlignCostAtLeast(ev: seq<Edit>, s1: seq<int>, s2: seq<int>, i: nat, j: nat)
    requires i <= |s2| && j <= |s1|
    requires Aligns(ev, s1, s2, i, j)
    ensures Cost(ev) >= Cell(s1, s2, i, j)
    decreases |ev|
  {
    if |ev| > 0 {
      ConsStep(ev[0], ev[1..]);
      assert ev == [ev[0]] + ev[1..];
      Neighbours(s1, s2, i, j);
      if ev[0] == Del {
        AlignCostAtLeast(ev[1..], s1, s2, i-1, j);
      } else if ev[0] == Ins {
        AlignCostAtLeast(ev[1..], s1, s2, i, j-1);
      } else {
        AlignCostAtLeast(ev[1..], s1, s2, i-1, j-1);
      }
    }
  }

  /** The traceback's script is an alignment of the two prefixes. */
  lemma {:induction false} TraceAligns(s1: seq<int>, s2: seq<int>, i: nat, j: nat)
    requires i <= |s2| && j <= |s1|
    ensures Aligns(Script(s1, s2, i, j), s1, s2, i, j)
    decreases i + j
  {
    if i + j > 0 {
      var e := Choose(s1, s2, i, j);
      var i', j' := if e == Ins then i else i - 1, if e == Del then j else j - 1;
      var t := Script(s1, s2, i, j);
      assert t == [e] + Script(s1, s2, i', j');
      assert t[1..] == Script(s1, s2, i', j');
      assert e == Same ==> s2[i-1] == s1[j-1] by {
        ChooseSound(s1, s2, i, j);
      }
      TraceAligns(s1, s2, i', j');
    }
  }

  /** The traceback's script costs exactly the distance: with
      AlignCostAtLeast, it is an optimal edit script. */
  lemma {:induction false} TraceCost(s1: seq<int>, s2: seq<int>, i: nat, j: nat)
    requires i <= |s2| && j <= |s1|
    ensures Cost(Script(s1, s2, i, j)) == Cell(s1, s2, i, j)
    decreases i + j
  {
    if i + j > 0 {
      var e := Choose(s1, s2, i, j);
      var i', j' := if e == Ins then i else i - 1, if e == Del then j else j - 1;
      var rest := Script(s1, s2, i', j');
      assert Script(s1, s2, i, j) == [e] + rest;
      assert Cell(s1, s2, i', j') + (if e == Same then 0 else 1) == Cell(s1, s2, i, j) by {
        ChooseSound(s1, s2, i, j);
      }
      assert Cost([e] + rest) == Cost(rest) + (if e == Same then 0 else 1) by {
        ConsStep(e, rest);
      }
      TraceCost(s1, s2, i', j');
    }
  }

  /** The traceback's script marks a step `same` exactly when it joins two
      equal runes: the rendered views then agree everywhere but inside
      `subst` spans. */
  lemma {:induction false} ScriptMatches(s1: seq<int>, s2: seq<int>, i: nat, j: nat)
    requires i <= |s2| && j <= |s1|
    ensures StepsMatch(s1, s2, Script(s1, s2, i, j))
    decreases i + j
  {
    if i + j > 0 {
      var e := Choose(s1, s2, i, j);
      var i', j' := if e == Ins then i else i - 1, if e == Del then j else j - 1;
      var rest := Script(s1, s2, i', j');
      assert Script(s1, s2, i, j) == [e] + rest;
      ScriptMatches(s1, s2, i', j');
      TraceAligns(s1, s2, i', j');
      AlignsConsumes(rest, s1, s2, i', j');
      ChooseSound(s1, s2, i, j);
      ConsMatches(s1, s2, e, rest);
    }
  }

  /** A matching script stays matching when a step pairing its runes
      correctly is put in front. */
  lemma ConsMatches(s1: seq<int>, s2: seq<int>, e: Edit, rest: seq<Edit>)
    requires StepsMatch(s1, s2, rest)
    requires e == Same || e == Subst ==>
      && Consumed1(rest) < |s1| && Consumed2(rest) < |s2|
      && (s1[Consumed1(rest)] == s2[Consumed2(rest)] <==> e == Same)
    ensures StepsMatch(s1, s2, [e] + rest)
  {
    var t := [e] + rest;
    forall k | 0 <= k < |t| && (t[k] == Same || t[k] == Subst)
      ensures Consumed1(t[k+1..]) < |s1| && Consumed2(t[k+1..]) < |s2|
      ensures s1[Consumed1(t[k+1..])] == s2[Consumed2(t[k+1..])] <==> t[k] == Same
    {
      if k == 0 {
        assert t[1..] == rest;
      } else {
        assert t[k] == rest[k-1] && t[k+1..] == rest[k..];
      }
    }
  }

  /** The whole script: it consumes both strings and costs their distance. */
  lemma TraceWhole(s1: seq<int>, s2: seq<int>)
    ensures Consumed1(Script(s1, s2, |s2|, |s1|)) == |s1|
    ensures Consumed2(Script(s1, s2, |s2|, |s1|)) == |s2|
    ensures Cost(Script(s1, s2, |s2|, |s1|)) == Lev(s1, s2)
  {
    TraceAligns(s1, s2, |s2|, |s1|);
    TraceCost(s1, s2, |s2|, |s1|);
    AlignsConsumes(Script(s1, s2, |s2|, |s1|), s1, s2, |s2|, |s1|);
  }

  /** Cell (r, c) read from the stored matrix. */
  function At(s1: seq<int>, s2: seq<int>, m: seq<int>, r: nat, c: nat): (v: int)
    requires IsMatrix(s1, s2, m) && r <= |s2| && c <= |s1|
    ensures v == Cell(s1, s2, r, c)
  {
    m[Idx(Width(s1), r, c)]
  }

  /** The three predecessors of cell (i, j) read from the stored matrix,
      -1 standing for one outside the matrix. */
  method Predecessors(s1: seq<int>, s2: seq<int>, m: seq<int>, i: int, j: int)
    returns (distSubst: int, distIns: int, distDel: int)
    requires IsMatrix(s1, s2, m)
    requires 0 <= i <= |s2| && 0 <= j <= |s1|
    ensures distSubst == if i > 0 && j > 0 then Cell(s1, s2, i-1, j-1) else -1
    ensures distIns == if j > 0 then Cell(s1, s2, i, j-1) else -1
    ensures distDel == if i > 0 then Cell(s1, s2, i-1, j) else -1
  {
    var iDel, jDel := i - 1, j;
    var iIns, jIns := i, j - 1;
    var iSubst, jSubst := i - 1, j - 1;
    distSubst, distIns, distDel := -1, -1, -1;
    if iSubst >= 0 && jSubst >= 0 {
      distSubst := At(s1, s2, m, iSubst, jSubst);
    }
    if jIns >= 0 {
      distIns := At(s1, s2, m, iIns, jIns);
    }
    if iDel >= 0 {
      distDel := At(s1, s2, m, iDel, jDel);
    }
  }

  /** One step of the traceback loop: take the first predecessor strictly
      smaller than the best so far, in the order substitution, insertion,
      deletion, moving diagonally when none is smaller. */
  method Step(s1: seq<int>, s2: seq<int>, m: seq<int>, i: int, j: int, prevDist: int)
    returns (e: Edit, ni: int, nj: int, dist: int)
    requires IsMatrix(s1, s2, m)
    requires 0 <= i <= |s2| && 0 <= j <= |s1| && i + j > 0
    requires prevDist == Cell(s1, s2, i, j)
    ensures e == Choose(s1, s2, i, j)
    ensures ni == (if e == Ins then i else i - 1) && nj == (if e == Del then j else j - 1)
    ensures 0 <= ni && 0 <= nj && dist == Cell(s1, s2, ni, nj)
  {
    var distSubst, distIns, distDel := Predecessors(s1, s2, m, i, j);
    e := Same;
    ni, nj := i - 1, j - 1;
    dist := prevDist;
    if distSubst >= 0 && distSubst < dist {
      e := Subst;
      dist := distSubst;
    }
    if distIns >= 0 && distIns < dist {
      e := Ins;
      ni, nj := i, j - 1;
      dist := distIns;
    }
    if distDel >= 0 && distDel < dist {
      e := Del;
      ni, nj := i - 1, j;
      dist := distDel;
    }
    ChooseSound(s1, s2, i, j);
  }

  /** The traceback loop over the stored matrix: from the bottom-right
      cell, step by the tie rule until the origin. */
  method Walk(s1: seq<int>, s2: seq<int>, m: seq<int>) returns (events: seq<Edit>)
    requires IsMatrix(s1, s2, m)
    ensures events == Script(s1, s2, |s2|, |s1|)
    ensures Aligns(events, s1, s2, |s2|, |s1|) && Cost(events) == Lev(s1, s2)
  {
    events := [];
    var i: int := |s2|;
    var j: int := |s1|;
    var prevDist := At(s1, s2, m, i, j);
    while !(i == 0 && j == 0)
      invariant 0 <= i <= |s2| && 0 <= j <= |s1|
      invariant prevDist == Cell(s1, s2, i, j)
      invariant events + Script(s1, s2, i, j) == Script(s1, s2, |s2|, |s1|)
      decreases i + j
    {
      ghost var i0, j0, before := i, j, events;
      var e;
      e, i, j, prevDist := Step(s1, s2, m, i, j, prevDist);
      TraceUnfold(s1, s2, i0, j0);
      events := events + [e];
      Assoc(before, [e], Script(s1, s2, i, j));
    }
    assert events == Script(s1, s2, |s2|, |s1|) by {
      assert Script(s1, s2, i, j) == [];
      assert events + [] == events;
    }
    TraceWhole(s1, s2);
    TraceAligns(s1, s2, |s2|, |s1|);
  }

  /** One step of the traceback from cell (i, j). */
  lemma TraceUnfold(s1: seq<int>, s2: seq<int>, i: nat, j: nat)
    requires i <= |s2| && j <= |s1| && i + j > 0
    ensures var e := Choose(s1, s2, i, j);
      Script(s1, s2, i, j) == [e] + Script(s1, s2, if e == Ins then i else i - 1, if e == Del then j else j - 1)
  {
  }

  /** The traceback: the optimal script rendered as the two tagged views,
      which describe s1 and s2 and tag exactly Lev(s1, s2) runes each, the
      k-th rune of the first view sitting in the span of the k-th step of
      the script from its start. */
  method TraceBack(s1: seq<int>, s2: seq<int>, m: seq<int>) returns (d1: seq<Token>, d2: seq<Token>)
    requires IsMatrix(s1, s2, m)
    requires |s1| + |s2| > 0
    ensures Describes(s1, s2, Lev(s1, s2), d1, d2)
    ensures Spans(d1) == EventSpans(Script(s1, s2, |s2|, |s1|))
  {
    var events := Walk(s1, s2, m);
    TraceWhole(s1, s2);
    ScriptMatches(s1, s2, |s2|, |s1|);
    d1, d2 := Diffs(s1, s2, events);
    assert s1[..|s1|] == s1 && s2[..|s2|] == s2;
  }
}
